=== FILE: README.md ===
# Transit card validator, modelled in Dafny

The validator is a ticket kiosk and its server. The kiosk reads a contactless card with an NFC
reader, asks the server whether the card may travel, and shows the answer on screen. The server
keeps a `cards` collection (UID → status, credits, expiration date) and answers a scan by taking
one credit from a VALID card, or by turning a VALID card without credits INVALID; any other
stored status is only echoed back. It also offers top-up and status-update routes and a ping route
that the kiosk polls to decide whether it is online. A one-off script copies a JSON file of cards
into the collection in batches.

The model, one module per source file:

- `common.dfy` (`Common`): an option type, a JSON value with Python truthiness, and request bodies.
- `bearer_auth.dfy` (`BearerAuth`): the header check in front of the ping, scan and status routes, with
  Python's `str.split()` and ASCII `lower()`.
- `card_ledger.dfy` (`CardLedger`): the route handlers as functions over a UID → card map. The class
  `Ledger` holds the collection and performs the same requests by updating it in place.
- `migration.dfy` (`Migration`): the batching loop of the migration script, as a method with loop
  invariants, and the collection the writes produce.
- `nfc_reader.dfy` (`NfcReader`): the hex UID encoding and its inverse. Also the card-presence edge
  detector, first as a step function and then as a `Reader` class whose loop fires callbacks.
- `client_state.dfy` (`ClientState`): the status dictionary shared by the kiosk's threads, as a class
  with an invariant.
- `server_communication.dfy` (`ServerCommunication`): the URL normalisation and the classification of
  a scan reply. The `ServerComm` class holds the ping counter and the loop that sets the
  `connected` and `ready` flags.
- `validator.dfy` (`Validator`): the card-detected and card-removed callbacks.
- `screens.dfy` (`Screens`): the splash screen's redraw flag. Also the main screen's choice of
  banner, validation panel, buttons, card image and idle animation.
- `end_to_end.dfy` (`EndToEnd`): reader UID → scan route → reply classification → what the kiosk shows.

The network, the NFC frontend, threads and the clock are inputs. A request is given as its outcome
(status code and body, or the exception raised). A poll of the reader is given as its sense result.
A frame is given by its frame counter.

The model follows the code, also where its comments or documentation say otherwise:
- the server has no expiration check and no scan cooldown;
- the server never produces EXPIRED or INSUFFICIENT_CREDITS itself, it only echoes a stored status;
- `ready` is set after a single successful ping, although a doc comment says two.

## Model

| member | source | states |
|---|---|---|
| BearerAuth.Check | server/app.py:37-46 | An absent or empty header is refused as missing; a present header that does not split into exactly two words is refused as an invalid header; two words whose first is not "bearer" in any letter case are refused as an invalid scheme; otherwise the request passes |
| BearerAuth.Words | server/app.py:42 | Whitespace splitting yields non-empty words free of whitespace |
| BearerAuth.AsciiLower | server/app.py:43 | Lower-casing keeps the length and lowers each ASCII capital |
| BearerAuth.WordsAfterPadding | server/app.py:42 | Splitting skips leading whitespace, yields the next word, then the words of the rest |
| BearerAuth.AcceptsAnyToken | server/app.py:41-49 | "bearer" in any case, then whitespace, then any non-empty whitespace-free token, with any surrounding whitespace, is accepted |
| BearerAuth.RejectsLoneWord | server/app.py:41-46 | A header of one word is refused as an invalid header |
| BearerAuth.RejectsBlankHeader | server/app.py:37-46 | A non-empty header of whitespace only is refused as an invalid header, not as a missing one |
| BearerAuth.RejectsOtherScheme | server/app.py:42-44 | Two words whose first is not "bearer" in any case, with any whitespace around and between them, are refused as an invalid scheme |
| CardLedger.AsciiUpper | server/app.py:138 | Upper-casing keeps the length and raises each ASCII small letter |
| CardLedger.AsciiUpperIdempotent | server/app.py:138 | Upper-casing an upper-cased UID changes nothing |
| CardLedger.ScanCard | server/app.py:147-169 | A found card: VALID with credits loses exactly one credit; VALID without credits becomes INVALID with its credits kept; any other status (absent reads "OK") is not written; the reply reports the card as stored afterwards, with the expiration passed through |
| CardLedger.Scan | server/app.py:124-182 | A missing body gives 400 "Missing request body" and a missing card_uid 400 "Missing card_uid"; a card_uid that is not a string makes `.upper()` raise, answered 500; an unknown upper-cased UID gives 404 with INVALID, 0 credits and a null date; only a 200 writes, and only the scanned card; the keys never change |
| CardLedger.AmountOf | server/app.py:257-258 | The amount is accepted as an integer iff it is a JSON integer or boolean (true counts 1) |
| CardLedger.TopUp | server/app.py:252-283 | 200 iff a body, an integer amount above 0 and a known card; then credits rise by exactly the amount, INVALID becomes VALID and any other status is kept, nothing else changes; a missing body or a bad amount gives 400 with its error, an unknown card 404 "Card not found"; every other answer writes nothing |
| CardLedger.SetStatus | server/app.py:197-216 | 200 iff a body, a truthy status and a known card; then the status becomes exactly the value sent and nothing else changes; a missing body or status gives 400 with its error, an unknown card 404 "Card not found"; otherwise nothing is written |
| CardLedger.PingStatus | server/app.py:54-91 | A refused header gives 401 with its error text; then a missing body gives 400 "Missing request body" and a missing line_name 400 "Missing line_name"; otherwise 200 with "OK" |
| CardLedger.Ledger.ScanCardInfo | server/app.py:98-182 | A refused header gives 401 with its error and no write; otherwise the reply and the new collection are those of `Scan` on the old one |
| CardLedger.Ledger.TopUpCard | server/app.py:242-287 | The two sequential writes leave the reply and collection of `TopUp` on the old collection; no header check |
| CardLedger.Ledger.UpdateCardStatus | server/app.py:186-220 | A refused header gives 401 and no write; otherwise the reply and collection of `SetStatus` |
| CardLedger.ScanIgnoresCase | server/app.py:137-138 | Scanning a UID and its upper-case form give the same reply and collection |
| CardLedger.ScansCountDown | server/app.py:153-157 | k scans of a VALID card holding at least k credits take exactly k credits, keep VALID and the expiration, and touch no other card |
| CardLedger.ExhaustedCardIsInvalidated | server/app.py:158-161 | A VALID card without credits is answered INVALID with its balance and stored INVALID; a second scan answers INVALID and writes nothing |
| CardLedger.CreditsLastExactly | server/app.py:153-161 | A VALID card with n credits answers INVALID with balance 0 on scan n+1 |
| CardLedger.TopUpRevalidates | server/app.py:269-279 | Topping up an invalidated card with no credits answers the new balance, and the next scan answers VALID with one credit fewer |
| CardLedger.RoutesKeepCreditsNonNegative | server/app.py:153-161 | Scan, top-up and status update keep every stored balance at or above zero |
| Migration.Migrate | server/migrate_to_firebase.py:36-49 | The count is the number of entries; the committed batches hold every entry once, in file order; every batch but the last holds 400 writes, none more than 400 (below the 500 limit); there are ceil(n/400) commits, none for no entries |
| Migration.ApplyStoresEveryEntry | server/migrate_to_firebase.py:37-39 | With distinct keys each entry is stored under its key as written with its record unchanged, and no other key is added or changed |
| NfcReader.Hex | client/src/nfc_reader.py:138 | Two upper-case hex digits per byte |
| NfcReader.UnhexHex | client/src/nfc_reader.py:138 | The hex string decodes back to the bytes |
| NfcReader.ExtractUid | client/src/nfc_reader.py:133-142 | A UID iff the target has an SDD response; two upper-case hex digits per byte, decoding back to the bytes |
| NfcReader.Transition | client/src/nfc_reader.py:102-121 | A new non-empty UID different from the current one is stored and reported once, with no removal first; a detection is only ever of the sensed target's UID; an unreadable, empty or repeated UID changes nothing and fires nothing; an empty poll reports a removal and clears the UID iff a card was present, and is the only source of removals; a failed poll changes nothing |
| NfcReader.RunIsCoherent | client/src/nfc_reader.py:98-119 | Over any run of polls the current UID is what the fired callbacks imply, and every callback was admissible when fired |
| NfcReader.NoRepeatedEdges | client/src/nfc_reader.py:106-119 | No two consecutive callbacks are the same: no double removal, no repeated detection of one card |
| NfcReader.Reader.constructor | client/src/nfc_reader.py:40-47 | No frontend, not running, no current card |
| NfcReader.Reader.Connect | client/src/nfc_reader.py:49-68 | Succeeds and opens the frontend iff the device is available |
| NfcReader.Reader.Disconnect | client/src/nfc_reader.py:70-75 | Drops the frontend and nothing else |
| NfcReader.Reader.Start | client/src/nfc_reader.py:77-83 | Sets running; a loop is started only when not already running |
| NfcReader.Reader.Stop | client/src/nfc_reader.py:85-91 | Clears running and drops the frontend |
| NfcReader.Reader.IsConnected | client/src/nfc_reader.py:144-151 | Connected iff running and holding a frontend |
| NfcReader.Reader.ReadOnce | client/src/nfc_reader.py:99-121 | The current UID and the fired callbacks follow `Transition` |
| NfcReader.Reader.ReaderLoop | client/src/nfc_reader.py:93-121 | Without a device nothing happens and the frontend stays as it was; with one the frontend is open and, while running, the current UID and fired callbacks are those of `Run` over the polls |
| ClientState.Status.constructor | client/src/validator.py:46-53 | Not connected, not ready, no card, empty card status, no last UID or validation; the status invariant holds |
| ServerCommunication.TrimTrailingSlashes | client/src/server_communication.py:40 | The result is a prefix of the URL, only slashes were removed, and it does not end in a slash |
| ServerCommunication.ValidateCard | client/src/server_communication.py:148-226 | Success iff a 200 with a readable body, then status, credits and date come from the body with defaults "OK", 0 and none; a failure has 0 credits, no date and an error; its status is "UNKNOWN" iff the code was 404 (error "card not found"), otherwise "ERROR"; the error records the other status code, the timeout, the connection error, or the unexpected error with its message |
| ServerCommunication.PingServer | client/src/server_communication.py:88-129 | A ping succeeds iff it is answered 200; another code, a timeout, a connection error or any other exception is a failure |
| ServerCommunication.StreakCountsSinceLastFailure | client/src/server_communication.py:67-85 | The counter is the start plus the number of pings if none failed; otherwise it counts exactly the successes after the last failure |
| ServerCommunication.ServerComm.constructor | client/src/server_communication.py:40-50 | The URL is stored without trailing slashes; not running, counter 0 |
| ServerCommunication.ServerComm.Start | client/src/server_communication.py:52-58 | Sets running; a ping loop is started only when not already running |
| ServerCommunication.ServerComm.Stop | client/src/server_communication.py:60-65 | Clears running |
| ServerCommunication.ServerComm.PingOnce | client/src/server_communication.py:71-85 | A ping answered 200 adds one to the counter and sets connected and ready; any other outcome resets the counter and clears both; ready always equals connected |
| ServerCommunication.ServerComm.PingLoop | client/src/server_communication.py:67-87 | While running, the counter follows `Streak` over the outcomes and the flags reflect the last ping; not running, nothing changes |
| ServerCommunication.ServerComm.IsConnected | client/src/server_communication.py:228-235 | Returns the shared connected flag |
| ServerCommunication.ServerComm.IsReady | client/src/server_communication.py:237-244 | Returns the shared ready flag |
| Validator.OnCardDetected | client/src/validator.py:56-65 | Records the UID and an active card, shows LOADING, then stores the validation result and shows its status; the status invariant is kept |
| Validator.OnCardRemoved | client/src/validator.py:69-73 | Clears the active flag and the shown status, keeping the last UID and validation; the invariant is kept |
| Screens.SplashScreen.constructor | client/src/screens.py:20-35 | Stores text and colour with a pending redraw |
| Screens.SplashScreen.Update | client/src/screens.py:12-16 | Draws once iff a redraw is pending, then clears the flag, so a second update draws nothing |
| Screens.SplashScreen.SetText | client/src/screens.py:37-39 | Stores the text and requests a redraw |
| Screens.SplashScreen.SetColor | client/src/screens.py:41-43 | Stores the colour and requests a redraw |
| Screens.LangGet | client/src/screens.py:237 | The table's entry for a present key, the fallback otherwise |
| Screens.BannerFor | client/src/screens.py:232-255 | Green iff VALID; red iff INVALID, EXPIRED, INSUFFICIENT_CREDITS, UNKNOWN or TRY_AGAIN; blue otherwise (LOADING, "", ERROR, anything else); each text is the table's entry with its English fallback |
| Screens.KioskLangIsTheFallback | client/src/validator.py:31-44 | With the kiosk's strings every banner is the same as with the fallbacks |
| Screens.ErrorLooksIdle | client/src/screens.py:250-255 | The ERROR banner is the idle blue "Scan your card" banner |
| Screens.NatToDecimal | client/src/screens.py:182 | Decimal digits without a leading zero |
| Screens.DecimalRoundTrip | client/src/screens.py:182 | The digits read back as the number |
| Screens.IntToString | client/src/screens.py:182 | A minus sign before the digits of a negative balance |
| Screens.ShownExpiration | client/src/screens.py:183 | An absent date is shown as N/A, a present one as itself |
| Screens.ShownExpirationAsWritten | client/src/screens.py:183 | An absent date is rendered "None", a present one as itself |
| Screens.PanelAsWritten | client/src/screens.py:177-191 | The panel as the program draws it: blank iff the status is not one of the four verdicts; VALID the trip line, the balance and the date; INVALID only the deactivation line; EXPIRED the expiry line and the date; INSUFFICIENT_CREDITS its two lines; an absent date is rendered "None" |
| Screens.ValidationPanel | client/src/screens.py:177-191 | The same four panels line for line, with an absent date shown as N/A |
| Screens.PanelsDifferOnlyOnAbsentDate | client/src/screens.py:183-188 | The panel as written and the corrected one differ exactly for VALID or EXPIRED with no date |
| Screens.PanelShowsNoneAsWritten | client/src/screens.py:183 | As written a VALID result without a date reads "Valid until: None"; corrected it reads "Valid until: N/A" |
| Screens.CreditsLineReadsBack | client/src/screens.py:182 | The credits line of a VALID panel ends in digits that read back as the balance |
| Screens.DrawUi | client/src/screens.py:269-285 | The panel iff the status is one of the four verdicts, and then exactly the validation panel for that status and result; the buttons otherwise; the banner is always drawn |
| Screens.ValidStatusIsDrawable | client/src/screens.py:177-188 | The shared-status invariant guarantees a validation whenever the panel reads one |
| Screens.CycleFrame | client/src/screens.py:305 | The position in the 30-frame cycle: below 30 and congruent to the frame count modulo 30 |
| Screens.AnimationPhase | client/src/screens.py:303-315 | Fade-in iff the cycle position is below 10, fade-out iff it is 20 or more, fully visible between |
| Screens.IdleOpacity | client/src/screens.py:307-315 | Between 0 and 255; 255 while fully visible, below 255 while fading in, 0 at the start of a cycle |
| Screens.FadesAreMonotone | client/src/screens.py:307-315 | Within a cycle the fade-in never dims and the fade-out never brightens |
| Screens.IdleCycleRepeats | client/src/screens.py:305 | Phase and opacity repeat every 30 frames |
| Screens.DrawCard | client/src/screens.py:287-315 | An active card is opaque, red iff refused, green iff VALID, plain otherwise; an idle card is plain at the idle opacity |
| Screens.CardMatchesBanner | client/src/screens.py:288-300 | For a verdict the active card is green or red exactly when the banner is |
| EndToEnd.KioskHeaderAccepted | client/src/server_communication.py:155-158 | The kiosk's "Bearer" header passes the server's check for any non-empty whitespace-free token and is refused for an empty one |
| EndToEnd.DefaultTokenAccepted | client/src/validator.py:27 | The default token passes the check |
| EndToEnd.ReaderUidIsCanonical | client/src/nfc_reader.py:138 | A reader UID is its own upper-case form, so the server looks it up as sent |
| EndToEnd.ScanOfReaderUid | server/app.py:130-169 | A reader UID is answered 404 when unknown, and otherwise by its own card's scan |
| EndToEnd.UnknownCardAsksToRetry | client/src/server_communication.py:179-187 | A card the server does not know is shown as UNKNOWN, under the red "Try again" banner |
| EndToEnd.ValidCardShowsGreen | server/app.py:153-157 | A VALID card with credits is shown VALID, green, with one credit fewer on the panel |
| EndToEnd.ExhaustedCardShowsInvalid | server/app.py:158-161 | A VALID card without credits is shown INVALID in red with the deactivation line, and is stored INVALID |
| EndToEnd.CardWithoutDateShowsNone | client/src/screens.py:183 | A VALID card stored without a date shows "Valid until: None" as written and "Valid until: N/A" corrected |
| EndToEnd.FailedRequestLooksIdle | client/src/server_communication.py:188-197 | Any reply but 200 or 404 is classified ERROR and shows the idle banner |

## Left out

- Flask routing, CORS, JSON parsing, static files, the health route and Firebase start-up: each request is one call on an in-memory map.
- Races between concurrent requests and the missing transactions in scan and top-up: the model serves one request at a time, and top-up's two writes happen in sequence.
- The catch-all handlers that turn driver exceptions into 500: the only exception the model can name, `.upper()` on a card_uid that is not a string, is kept, and `CardLedger.Scan` states its 500 answer.
- `get_all_cards`: a listing with no logic, and nothing else depends on it.
- The timestamps of the ping route and of the client's request bodies: they come from the clock and nothing reads them.
- Request bodies that are JSON but not objects, stored credits that are not integers, and scan replies whose status or credits are not a string or an integer: these fall outside the value types the model uses.
- Case mapping beyond ASCII in `upper()` and `lower()`: reader UIDs and the "bearer" scheme are ASCII.
- Threads, `sleep`, `join`, the nfcpy frontend and `requests`: their results are inputs (sense results, outcomes of requests).
- The handler around the whole ping loop body: the step it guards never raises in the model, and it takes the same action as a failed ping.
- A reader built without callbacks: the kiosk always passes both.
- Exceptions raised inside a callback: nothing in the model raises them.
- The exact text of the client's error messages: the error kind and the status code are kept.
- pygame: surfaces, fonts, images, positions, status bars with date and time, `MainScreen.update`/`draw` and the frame loop in client/src/gui.py. The model keeps only the choices they display.
- Screens.IdleOpacity: uses integer floors where the source multiplies floats. The fade phases are exact, but an opacity value may differ by one where the float product rounds just below an integer.
- EndToEnd.Received: models only replies whose status and expiration date are strings (or a null date). A stored status of another JSON type is not carried to the kiosk. A stored date of another JSON type, such as a number, reaches the kiosk as no date: the model then shows "None" (or "N/A" corrected) where the program prints that value.
- Screens.DrawUi: composes the corrected `ValidationPanel`, so for a VALID or EXPIRED card without a date it shows "N/A" where the program shows "None" (see Findings); `Screens.PanelAsWritten` is the program's panel, and `Screens.PanelsDifferOnlyOnAbsentDate` states exactly where the two differ.
- The interactive simulator client/simulate_reader.py and the logging and start-up wiring of client/src/validator.py: no logic of their own.

## Findings

| source | as written | input that shows it | evidently intended | confidence | as-written member | corrected member |
|---|---|---|---|---|---|---|
| client/src/screens.py:183-188 | The panel reads the expiration with an "N/A" default. But the validation result always contains the key, holding None when the server sent no date. So the date line renders Python's `str(None)` | A card stored VALID with credits and no expiration date: the panel reads "Valid until: None". The same holds for "Expired on:" | "Valid until: N/A" | not executed; high | Screens.PanelAsWritten, shown by Screens.PanelShowsNoneAsWritten and EndToEnd.CardWithoutDateShowsNone | Screens.ValidationPanel, used by Screens.DrawUi |

=== FILE: bearer_auth.dfy ===
/** The `require_bearer_token` header check put in front of the ping, scan and status routes
    (server/app.py). It tokenises the Authorization header the way Python's `str.split()` does
    and accepts any second token. */
module BearerAuth {
  import opened Common

  /** The characters Python's `str.split()` (with no separator) treats as whitespace. */
  predicate IsSpace(c: char) {
    var n := c as int;
    n == 32 || 9 <= n <= 13 || 28 <= n <= 31 || n == 0x85 || n == 0xA0 || n == 0x1680
    || 0x2000 <= n <= 0x200A || n == 0x2028 || n == 0x2029 || n == 0x202F || n == 0x205F
    || n == 0x3000
  }

  predicate NoSpace(s: string) {
    forall i :: 0 <= i < |s| ==> !IsSpace(s[i])
  }

  predicate AllSpace(s: string) {
    forall i :: 0 <= i < |s| ==> IsSpace(s[i])
  }

  /** The longest prefix of `s` free of whitespace. */
  function Token(s: string): (w: string)
    ensures w <= s && NoSpace(w)
    ensures |w| < |s| ==> IsSpace(s[|w|])
  {
    if s == [] || IsSpace(s[0]) then [] else [s[0]] + Token(s[1..])
  }

  /** `s.split()`: the maximal runs of non-whitespace characters, in order. */
  function Words(s: string): (ws: seq<string>)
    ensures forall i :: 0 <= i < |ws| ==> ws[i] != [] && NoSpace(ws[i])
    decreases |s|
  {
    if s == [] then []
    else if IsSpace(s[0]) then Words(s[1..])
    else
      var w := Token(s);
      [w] + Words(s[|w|..])
  }

  function LowerChar(c: char): char {
    if 'A' <= c <= 'Z' then (c as int + 32) as char else c
  }

  /** `s.lower()` on ASCII letters; other characters are kept. */
  function AsciiLower(s: string): (r: string)
    ensures |r| == |s|
    ensures forall i :: 0 <= i < |s| ==> r[i] == LowerChar(s[i])
  {
    if s == [] then [] else [LowerChar(s[0])] + AsciiLower(s[1..])
  }

  /** Outcome of the header check: the route runs, or a 401 with the given error text. */
  datatype AuthResult = Authorized | Rejected(error: string)

  const MissingHeader := "Missing Authorization header"
  const InvalidScheme := "Invalid Authorization scheme"
  const InvalidHeader := "Invalid Authorization header"

  /** The check of server/app.py:37-49: an absent or empty header, a header that does not split
      into exactly two words, or a first word other than "bearer" in any case, is refused. */
  function Check(header: Option<string>): (r: AuthResult)
    ensures header.None? || header.value == "" ==> r == Rejected(MissingHeader)
    ensures r.Authorized? <==>
      header.Some? && |Words(header.value)| == 2 && AsciiLower(Words(header.value)[0]) == "bearer"
    ensures r.Rejected? ==> r.error in {MissingHeader, InvalidScheme, InvalidHeader}
    ensures header.Some? && header.value != "" && |Words(header.value)| != 2 ==> r == Rejected(InvalidHeader)
    ensures (header.Some? && header.value != "" && |Words(header.value)| == 2
             && AsciiLower(Words(header.value)[0]) != "bearer") ==> r == Rejected(InvalidScheme)
  {
    if header.None? || header.value == "" then Rejected(MissingHeader)
    else
      var ws := Words(header.value);
      if |ws| != 2 then Rejected(InvalidHeader)
      else if AsciiLower(ws[0]) != "bearer" then Rejected(InvalidScheme)
      else Authorized
  }

  /** A word followed by whitespace (or nothing) is cut exactly at its end. */
  lemma {:induction false} TokenOf(w: string, rest: string)
    requires NoSpace(w)
    requires rest == [] || IsSpace(rest[0])
    ensures Token(w + rest) == w
  {
    if w != [] {
      assert (w + rest)[0] == w[0];
      assert (w + rest)[1..] == w[1..] + rest;
      TokenOf(w[1..], rest);
    }
  }

  /** Whitespace alone splits into no words. */
  lemma {:induction false} WordsOfSpace(s: string)
    requires AllSpace(s)
    ensures Words(s) == []
  {
    if s != [] {
      WordsOfSpace(s[1..]);
    }
  }

  /** Leading whitespace is skipped and a word ends at the next whitespace. */
  lemma {:induction false} WordsAfterPadding(pad: string, w: string, rest: string)
    requires AllSpace(pad) && w != [] && NoSpace(w)
    requires rest == [] || IsSpace(rest[0])
    ensures Words(pad + w + rest) == [w] + Words(rest)
  {
    var s := pad + w + rest;
    if pad == [] {
      assert s == w + rest;
      assert s[0] == w[0];
      TokenOf(w, rest);
      assert s[|w|..] == rest;
    } else {
      assert s[0] == pad[0];
      assert s[1..] == pad[1..] + w + rest;
      WordsAfterPadding(pad[1..], w, rest);
    }
  }

  /** Any token is accepted after a "bearer" scheme in any letter case, whatever whitespace
      surrounds and separates the two words (server/app.py:42-48). */
  lemma AcceptsAnyToken(pre: string, scheme: string, mid: string, token: string, post: string)
    requires AllSpace(pre) && AllSpace(mid) && AllSpace(post) && mid != []
    requires AsciiLower(scheme) == "bearer"
    requires token != [] && NoSpace(token)
    ensures Check(Some(pre + scheme + mid + token + post)) == Authorized
  {
    assert |scheme| == 6;
    assert NoSpace(scheme) by {
      forall i | 0 <= i < |scheme| ensures !IsSpace(scheme[i]) {
        assert LowerChar(scheme[i]) == "bearer"[i];
      }
    }
    var h := pre + scheme + mid + token + post;
    WordsOfSpace(post);
    assert token + post == [] + token + post;
    WordsAfterPadding([], token, post);
    WordsAfterPadding(mid, token, post);
    assert h == pre + scheme + (mid + token + post);
    assert (mid + token + post)[0] == mid[0];
    WordsAfterPadding(pre, scheme, mid + token + post);
  }

  /** Exactly one word, however it is padded, is refused as a malformed header; this is what an
      empty client token turns "Bearer " into. */
  lemma RejectsLoneWord(pre: string, w: string, post: string)
    requires AllSpace(pre) && AllSpace(post) && w != [] && NoSpace(w)
    ensures Check(Some(pre + w + post)) == Rejected(InvalidHeader)
  {
    WordsOfSpace(post);
    WordsAfterPadding(pre, w, post);
  }

  /** Whitespace alone counts as a present header that does not split into two words. */
  lemma RejectsBlankHeader(h: string)
    requires h != [] && AllSpace(h)
    ensures Check(Some(h)) == Rejected(InvalidHeader)
  {
    WordsOfSpace(h);
  }

  /** Two words whose first is not "bearer" in any case are refused with the scheme error,
      whatever whitespace surrounds and separates them. */
  lemma RejectsOtherScheme(pre: string, scheme: string, mid: string, token: string, post: string)
    requires AllSpace(pre) && AllSpace(mid) && AllSpace(post) && mid != []
    requires scheme != [] && NoSpace(scheme) && AsciiLower(scheme) != "bearer"
    requires token != [] && NoSpace(token)
    ensures Check(Some(pre + scheme + mid + token + post)) == Rejected(InvalidScheme)
  {
    var h := pre + scheme + mid + token + post;
    WordsOfSpace(post);
    WordsAfterPadding(mid, token, post);
    assert h == pre + scheme + (mid + token + post);
    assert (mid + token + post)[0] == mid[0];
    WordsAfterPadding(pre, scheme, mid + token + post);
  }
}

=== FILE: card_ledger.dfy ===
/** The server's card ledger (server/app.py): the Firestore `cards` collection as a map from
    UID to a card document, and the handlers that read and update it one request at
    a time. The scan deducts one credit from a VALID card, turns a VALID card with no credits
    INVALID and echoes every other stored status; there is no expiration or cooldown rule. */
module CardLedger {
  import opened Common
  import BearerAuth

  /** A card document. Each field may be missing from the document; the status is whatever JSON
      value was last written (the status route does not check it against a list). */
  datatype Card = Card(status: Option<Json>, credits: Option<int>, expiration: Option<Json>)

  /** The JSON body of a response; `ack` is the "status": "OK" acknowledgement field. */
  datatype Payload =
    | Failure(error: string)
    | InternalError
    | CardInfo(status: Json, credits: int, expiration: Json)
    | CardUnknown(error: string, status: Json, credits: int, expiration: Json)
    | Pong(ack: string)
    | StatusUpdated(ack: string, newStatus: Json)
    | ToppedUp(ack: string, newCredits: int)

  datatype Response = Response(code: int, payload: Payload)

  /** A response together with the collection as the request left it. */
  datatype Outcome = Outcome(response: Response, cards: map<string, Card>)

  const Valid := JStr("VALID")
  const Invalid := JStr("INVALID")
  const NotFound := "Card not found"

  function UpperChar(c: char): char {
    if 'a' <= c <= 'z' then (c as int - 32) as char else c
  }

  /** `s.upper()` on ASCII letters; other characters are kept. */
  function AsciiUpper(s: string): (r: string)
    ensures |r| == |s|
    ensures forall i :: 0 <= i < |s| ==> r[i] == UpperChar(s[i])
  {
    if s == [] then [] else [UpperChar(s[0])] + AsciiUpper(s[1..])
  }

  /** Upper-casing twice is upper-casing once, so the lookup key is a fixed point. */
  lemma AsciiUpperIdempotent(s: string)
    ensures AsciiUpper(AsciiUpper(s)) == AsciiUpper(s)
  {
  }

  /** The status as the scan reads it: a document without one reads as "OK". */
  function StoredStatus(c: Card): Json {
    c.status.GetOr(JStr("OK"))
  }

  /** The balance as the handlers read it: a document without one reads as 0. */
  function StoredCredits(c: Card): int {
    c.credits.GetOr(0)
  }

  /** What one scan does to a found card and the 200 reply it sends (server/app.py:147-169). */
  datatype ScanEffect = ScanEffect(card: Card, reply: Payload)

  function ScanCard(c: Card): (r: ScanEffect)
    // the reply always reports the card as stored after the scan
    ensures r.reply == CardInfo(StoredStatus(r.card), StoredCredits(r.card), c.expiration.GetOr(JNull))
    ensures r.card.expiration == c.expiration
    // only a VALID card is written to
    ensures StoredStatus(c) != Valid ==> r.card == c
    ensures StoredStatus(c) == Valid && StoredCredits(c) > 0 ==>
      r.card == c.(credits := Some(StoredCredits(c) - 1)) && StoredCredits(r.card) >= 0
    ensures StoredStatus(c) == Valid && StoredCredits(c) <= 0 ==> r.card == c.(status := Some(Invalid))
  {
    var status := StoredStatus(c);
    var credits := StoredCredits(c);
    var expiration := c.expiration.GetOr(JNull);
    if status == Valid then
      if credits > 0 then ScanEffect(c.(credits := Some(credits - 1)), CardInfo(status, credits - 1, expiration))
      else ScanEffect(c.(status := Some(Invalid)), CardInfo(Invalid, credits, expiration))
    else ScanEffect(c, CardInfo(status, credits, expiration))
  }

  /** The scan route after the header check (server/app.py:124-178). */
  function Scan(cards: map<string, Card>, body: Option<Body>): (r: Outcome)
    ensures r.response.code != 200 ==> r.cards == cards
    ensures r.cards.Keys == cards.Keys
    ensures MissingBody(body) ==> r.response == Response(400, Failure("Missing request body"))
    ensures !MissingBody(body) && MissingField(body.value, "card_uid") ==>
      r.response == Response(400, Failure("Missing card_uid"))
    // `.upper()` on a card_uid that is not a string raises, and the handler answers 500
    ensures !MissingBody(body) && !MissingField(body.value, "card_uid") && !body.value["card_uid"].JStr? ==>
      r.response == Response(500, InternalError)
    ensures !MissingBody(body) && !MissingField(body.value, "card_uid") && body.value["card_uid"].JStr? ==>
      var key := AsciiUpper(body.value["card_uid"].s);
      && (key !in cards ==> r.response == Response(404, CardUnknown(NotFound, Invalid, 0, JNull)))
      && (key in cards ==>
            && r.response == Response(200, ScanCard(cards[key]).reply)
            && r.cards == cards[key := ScanCard(cards[key]).card])
  {
    if MissingBody(body) then Outcome(Response(400, Failure("Missing request body")), cards)
    else if MissingField(body.value, "card_uid") then Outcome(Response(400, Failure("Missing card_uid")), cards)
    else
      var uid := body.value["card_uid"];
      if !uid.JStr? then Outcome(Response(500, InternalError), cards)
      else
        var key := AsciiUpper(uid.s);
        if key !in cards then Outcome(Response(404, CardUnknown(NotFound, Invalid, 0, JNull)), cards)
        else
          var effect := ScanCard(cards[key]);
          Outcome(Response(200, effect.reply), cards[key := effect.card])
  }

  /** `isinstance(amount, int)`: a JSON integer, or a boolean (Python's bool is an int). */
  function AmountOf(j: Option<Json>): (r: Option<int>)
    ensures j.Some? && j.value.JInt? ==> r == Some(j.value.i)
    ensures j.Some? && j.value.JBool? ==> r == Some(if j.value.b then 1 else 0)
    ensures r.Some? <==> j.Some? && (j.value.JInt? || j.value.JBool?)
  {
    match j
    case Some(JInt(i)) => Some(i)
    case Some(JBool(b)) => Some(if b then 1 else 0)
    case _ => None
  }

  /** The top-up route (server/app.py:252-283); it has no header check. */
  function TopUp(cards: map<string, Card>, uid: string, body: Option<Body>): (r: Outcome)
    ensures r.response.code != 200 ==> r.cards == cards
    ensures r.cards.Keys == cards.Keys
    ensures r.response.code == 200 <==>
      !MissingBody(body) && AmountOf(Get(body.value, "amount")).Some?
      && AmountOf(Get(body.value, "amount")).value > 0 && AsciiUpper(uid) in cards
    ensures r.response.code == 200 ==>
      var key := AsciiUpper(uid);
      var amount := AmountOf(Get(body.value, "amount")).value;
      var old_ := cards[key];
      var new_ := r.cards[key];
      && StoredCredits(new_) == StoredCredits(old_) + amount
      && r.response.payload == ToppedUp("OK", StoredCredits(new_))
      && new_.status == (if old_.status == Some(Invalid) then Some(Valid) else old_.status)
      && new_.expiration == old_.expiration
      && (forall k :: k in cards && k != key ==> r.cards[k] == cards[k])
    ensures MissingBody(body) ==> r.response == Response(400, Failure("Missing request body"))
    ensures !MissingBody(body) && (AmountOf(Get(body.value, "amount")).None?
                                   || AmountOf(Get(body.value, "amount")).value <= 0) ==>
      r.response == Response(400, Failure("Invalid amount"))
    ensures !MissingBody(body) && AmountOf(Get(body.value, "amount")).Some?
            && AmountOf(Get(body.value, "amount")).value > 0 && AsciiUpper(uid) !in cards ==>
      r.response == Response(404, Failure(NotFound))
  {
    if MissingBody(body) then Outcome(Response(400, Failure("Missing request body")), cards)
    else
      var amount := AmountOf(Get(body.value, "amount"));
      if amount.None? || amount.value <= 0 then Outcome(Response(400, Failure("Invalid amount")), cards)
      else
        var key := AsciiUpper(uid);
        if key !in cards then Outcome(Response(404, Failure(NotFound)), cards)
        else
          var card := cards[key];
          var newCredits := StoredCredits(card) + amount.value;
          var credited := card.(credits := Some(newCredits));
          var updated := if card.status == Some(Invalid) then credited.(status := Some(Valid)) else credited;
          Outcome(Response(200, ToppedUp("OK", newCredits)), cards[key := updated])
  }

  /** The status route after the header check (server/app.py:197-216). */
  function SetStatus(cards: map<string, Card>, uid: string, body: Option<Body>): (r: Outcome)
    ensures r.response.code != 200 ==> r.cards == cards
    ensures r.cards.Keys == cards.Keys
    ensures r.response.code == 200 <==>
      !MissingBody(body) && !MissingField(body.value, "status") && AsciiUpper(uid) in cards
    ensures r.response.code == 200 ==>
      var key := AsciiUpper(uid);
      && r.cards == cards[key := cards[key].(status := Some(body.value["status"]))]
      && r.response.payload == StatusUpdated("OK", body.value["status"])
    ensures MissingBody(body) ==> r.response == Response(400, Failure("Missing request body"))
    ensures !MissingBody(body) && MissingField(body.value, "status") ==>
      r.response == Response(400, Failure("Missing status"))
    ensures !MissingBody(body) && !MissingField(body.value, "status") && AsciiUpper(uid) !in cards ==>
      r.response == Response(404, Failure(NotFound))
  {
    if MissingBody(body) then Outcome(Response(400, Failure("Missing request body")), cards)
    else if MissingField(body.value, "status") then Outcome(Response(400, Failure("Missing status")), cards)
    else
      var key := AsciiUpper(uid);
      if key !in cards then Outcome(Response(404, Failure(NotFound)), cards)
      else
        var newStatus := body.value["status"];
        Outcome(Response(200, StatusUpdated("OK", newStatus)), cards[key := cards[key].(status := Some(newStatus))])
  }

  /** The ping route (server/app.py:54-91): header check, then a body naming a line. */
  function PingStatus(authorization: Option<string>, body: Option<Body>): (r: Response)
    ensures r.code == 200 <==>
      BearerAuth.Check(authorization).Authorized? && !MissingBody(body) && !MissingField(body.value, "line_name")
    ensures r.code == 200 ==> r.payload == Pong("OK")
    ensures BearerAuth.Check(authorization).Rejected? ==>
      r == Response(401, Failure(BearerAuth.Check(authorization).error))
    ensures BearerAuth.Check(authorization).Authorized? && MissingBody(body) ==>
      r == Response(400, Failure("Missing request body"))
    ensures BearerAuth.Check(authorization).Authorized? && !MissingBody(body) && MissingField(body.value, "line_name") ==>
      r == Response(400, Failure("Missing line_name"))
  {
    var auth := BearerAuth.Check(authorization);
    if auth.Rejected? then Response(401, Failure(auth.error))
    else if MissingBody(body) then Response(400, Failure("Missing request body"))
    else if MissingField(body.value, "line_name") then Response(400, Failure("Missing line_name"))
    else Response(200, Pong("OK"))
  }

  /** The `cards` collection and the routes that write to it. */
  class Ledger {
    var cards: map<string, Card>

    constructor (initial: map<string, Card>)
      ensures cards == initial
    {
      cards := initial;
    }

    /** POST /validator/scanCardInfo (server/app.py:98-182). */
    method ScanCardInfo(authorization: Option<string>, body: Option<Body>) returns (resp: Response)
      modifies this
      ensures BearerAuth.Check(authorization).Rejected? ==>
        resp == Response(401, Failure(BearerAuth.Check(authorization).error)) && cards == old(cards)
      ensures BearerAuth.Check(authorization).Authorized? ==> Outcome(resp, cards) == Scan(old(cards), body)
    {
      var auth := BearerAuth.Check(authorization);
      if auth.Rejected? {
        return Response(401, Failure(auth.error));
      }
      if MissingBody(body) {
        return Response(400, Failure("Missing request body"));
      }
      var data := body.value;
      if MissingField(data, "card_uid") {
        return Response(400, Failure("Missing card_uid"));
      }
      var uid := data["card_uid"];
      if !uid.JStr? {
        return Response(500, InternalError);
      }
      var key := AsciiUpper(uid.s);
      if key !in cards {
        return Response(404, CardUnknown(NotFound, Invalid, 0, JNull));
      }
      var card := cards[key];
      var status := StoredStatus(card);
      var credits := StoredCredits(card);
      if status == Valid {
        if credits > 0 {
          credits := credits - 1;
          cards := cards[key := card.(credits := Some(credits))];
        } else {
          status := Invalid;
          cards := cards[key := card.(status := Some(Invalid))];
        }
      }
      resp := Response(200, CardInfo(status, credits, card.expiration.GetOr(JNull)));
    }

    /** POST /validator/cards/<card_uid>/topup (server/app.py:242-287): the credits are written,
        then, for a card that was INVALID, the status. */
    method TopUpCard(uid: string, body: Option<Body>) returns (resp: Response)
      modifies this
      ensures Outcome(resp, cards) == TopUp(old(cards), uid, body)
    {
      if MissingBody(body) {
        return Response(400, Failure("Missing request body"));
      }
      var amount := AmountOf(Get(body.value, "amount"));
      if amount.None? || amount.value <= 0 {
        return Response(400, Failure("Invalid amount"));
      }
      var key := AsciiUpper(uid);
      if key !in cards {
        return Response(404, Failure(NotFound));
      }
      var card := cards[key];
      var newCredits := StoredCredits(card) + amount.value;
      cards := cards[key := cards[key].(credits := Some(newCredits))];
      if card.status == Some(Invalid) {
        cards := cards[key := cards[key].(status := Some(Valid))];
      }
      resp := Response(200, ToppedUp("OK", newCredits));
    }

    /** POST /validator/cards/<card_uid>/status (server/app.py:186-220). */
    method UpdateCardStatus(authorization: Option<string>, uid: string, body: Option<Body>) returns (resp: Response)
      modifies this
      ensures BearerAuth.Check(authorization).Rejected? ==>
        resp == Response(401, Failure(BearerAuth.Check(authorization).error)) && cards == old(cards)
      ensures BearerAuth.Check(authorization).Authorized? ==> Outcome(resp, cards) == SetStatus(old(cards), uid, body)
    {
      var auth := BearerAuth.Check(authorization);
      if auth.Rejected? {
        return Response(401, Failure(auth.error));
      }
      if MissingBody(body) {
        return Response(400, Failure("Missing request body"));
      }
      if MissingField(body.value, "status") {
        return Response(400, Failure("Missing status"));
      }
      var key := AsciiUpper(uid);
      if key !in cards {
        return Response(404, Failure(NotFound));
      }
      var newStatus := body.value["status"];
      cards := cards[key := cards[key].(status := Some(newStatus))];
      resp := Response(200, StatusUpdated("OK", newStatus));
    }
  }

  // ---------------------------------------------------------------------------------------------
  // Properties of the ledger over several requests

  /** The body the kiosk sends for a scan (client/src/server_communication.py:150-154), reduced
      to the field the server reads. */
  function ScanRequest(uid: string): Body {
    map["card_uid" := JStr(uid)]
  }

  /** The lookup ignores the letter case of the UID sent. */
  lemma ScanIgnoresCase(cards: map<string, Card>, uid: string)
    ensures Scan(cards, Some(ScanRequest(uid))) == Scan(cards, Some(ScanRequest(AsciiUpper(uid))))
  {
    AsciiUpperIdempotent(uid);
  }

  /** The collection after `k` scans of the same UID. */
  function Rescan(cards: map<string, Card>, uid: string, k: nat): map<string, Card> {
    if k == 0 then cards else Scan(Rescan(cards, uid, k - 1), Some(ScanRequest(uid))).cards
  }

  /** `k` scans of a VALID card holding at least `k` credits each take one credit and leave the
      status, the expiry and every other card alone. */
  lemma {:induction false} ScansCountDown(cards: map<string, Card>, uid: string, k: nat)
    requires uid != "" && AsciiUpper(uid) in cards
    requires StoredStatus(cards[AsciiUpper(uid)]) == Valid
    requires k <= StoredCredits(cards[AsciiUpper(uid)])
    ensures var key := AsciiUpper(uid);
      var after := Rescan(cards, uid, k);
      && after.Keys == cards.Keys
      && StoredStatus(after[key]) == Valid
      && StoredCredits(after[key]) == StoredCredits(cards[key]) - k
      && after[key].expiration == cards[key].expiration
      && (forall other :: other in cards && other != key ==> after[other] == cards[other])
  {
    if k > 0 {
      ScansCountDown(cards, uid, k - 1);
      var before := Rescan(cards, uid, k - 1);
      var key := AsciiUpper(uid);
      assert Truthy(JStr(uid));
      assert ScanRequest(uid)["card_uid"] == JStr(uid);
      assert Scan(before, Some(ScanRequest(uid))).cards == before[key := ScanCard(before[key]).card];
    }
  }

  /** A card with no credits left: the scan answers INVALID with its balance and stores
      INVALID; every later scan answers INVALID and writes nothing. */
  lemma ExhaustedCardIsInvalidated(cards: map<string, Card>, uid: string)
    requires uid != "" && AsciiUpper(uid) in cards
    requires StoredStatus(cards[AsciiUpper(uid)]) == Valid && StoredCredits(cards[AsciiUpper(uid)]) <= 0
    ensures var key := AsciiUpper(uid);
      var first := Scan(cards, Some(ScanRequest(uid)));
      var second := Scan(first.cards, Some(ScanRequest(uid)));
      && first.response.code == 200
      && first.response.payload.status == Invalid
      && first.response.payload.credits == StoredCredits(cards[key])
      && first.cards == cards[key := cards[key].(status := Some(Invalid))]
      && second.cards == first.cards
      && second.response.payload.status == Invalid
  {
    assert Truthy(JStr(uid));
    assert ScanRequest(uid)["card_uid"] == JStr(uid);
  }

  /** A VALID card holding `n` credits answers VALID to `n` scans and INVALID to the next,
      with a balance of 0; there is no cooldown between scans. */
  lemma CreditsLastExactly(cards: map<string, Card>, uid: string)
    requires uid != "" && AsciiUpper(uid) in cards
    requires StoredStatus(cards[AsciiUpper(uid)]) == Valid && StoredCredits(cards[AsciiUpper(uid)]) >= 0
    ensures var n := StoredCredits(cards[AsciiUpper(uid)]);
      var last := Scan(Rescan(cards, uid, n), Some(ScanRequest(uid)));
      last.response == Response(200, CardInfo(Invalid, 0, cards[AsciiUpper(uid)].expiration.GetOr(JNull)))
  {
    var key := AsciiUpper(uid);
    var n := StoredCredits(cards[key]);
    ScansCountDown(cards, uid, n);
    ExhaustedCardIsInvalidated(Rescan(cards, uid, n), uid);
  }

  /** Topping up a card the scan invalidated makes it VALID again, and the next scan takes one
      of the new credits. */
  lemma TopUpRevalidates(cards: map<string, Card>, uid: string, amount: int)
    requires uid != "" && AsciiUpper(uid) in cards && amount > 0
    requires cards[AsciiUpper(uid)].status == Some(Invalid) && StoredCredits(cards[AsciiUpper(uid)]) == 0
    ensures var topped := TopUp(cards, uid, Some(map["amount" := JInt(amount)]));
      var scanned := Scan(topped.cards, Some(ScanRequest(uid)));
      && topped.response == Response(200, ToppedUp("OK", amount))
      && scanned.response.code == 200 && scanned.response.payload.CardInfo?
      && scanned.response.payload.status == Valid
      && scanned.response.payload.credits == amount - 1
  {
    var body := map["amount" := JInt(amount)];
    assert Get(body, "amount") == Some(JInt(amount));
    assert body != map[] by { assert "amount" in body; }
    assert Truthy(JStr(uid));
    assert ScanRequest(uid)["card_uid"] == JStr(uid);
  }

  /** No stored balance below zero. */
  ghost predicate CreditsNonNegative(cards: map<string, Card>) {
    forall k :: k in cards ==> StoredCredits(cards[k]) >= 0
  }

  /** Scans, top-ups and status updates never take a balance below zero. */
  lemma RoutesKeepCreditsNonNegative(cards: map<string, Card>, uid: string, body: Option<Body>)
    requires CreditsNonNegative(cards)
    ensures CreditsNonNegative(Scan(cards, body).cards)
    ensures CreditsNonNegative(TopUp(cards, uid, body).cards)
    ensures CreditsNonNegative(SetStatus(cards, uid, body).cards)
  {
  }
}

=== FILE: client_state.dfy ===
/** The kiosk's shared `status` dictionary (client/src/validator.py:46-53) and the record that
    `validate_card` returns into it. The ping loop, the card callbacks and the screens all read or
    write the same dictionary; here it is one object. */
module ClientState {
  import opened Common

  /** Why a validation did not succeed; `ServerStatus` carries the code its message quotes. */
  datatype ClientError =
    | CardNotFound
    | ServerStatus(code: int)
    | RequestTimeout
    | ConnectionError
    | Unexpected(message: string)

  /** The dictionary returned by `validate_card`. */
  datatype ValidationResult = ValidationResult(
    success: bool,
    status: string,
    credits: int,
    expiration: Option<string>,
    error: Option<ClientError>)

  /** Card statuses that are not the outcome of a validation: idle and waiting for the server. */
  predicate Transient(cardStatus: string) {
    cardStatus == "" || cardStatus == "LOADING"
  }

  class Status {
    var connected: bool
    var ready: bool
    var lastCardUid: Option<string>
    var lastValidation: Option<ValidationResult>
    var cardStatus: string
    var cardActive: bool
    /** Every value `card_status` has held, oldest first, as another thread could observe them. */
    ghost var cardStatusHistory: seq<string>

    /** No card on the reader shows no status; a card on the reader has a UID; any status other
        than idle or loading is the status of the last validation. */
    ghost predicate Valid()
      reads this
    {
      && (!cardActive ==> cardStatus == "")
      && (cardActive ==> lastCardUid.Some?)
      && (!Transient(cardStatus) ==> lastValidation.Some? && lastValidation.value.status == cardStatus)
      && cardStatusHistory != [] && cardStatusHistory[|cardStatusHistory| - 1] == cardStatus
    }

    /** The initial dictionary (client/src/validator.py:46-53). */
    constructor ()
      ensures Valid()
      ensures !connected && !ready && !cardActive && cardStatus == ""
      ensures lastCardUid.None? && lastValidation.None?
      ensures cardStatusHistory == [""]
    {
      connected, ready := false, false;
      lastCardUid, lastValidation := None, None;
      cardStatus, cardActive := "", false;
      cardStatusHistory := [""];
    }
  }
}

=== FILE: common.dfy ===
/** Values shared by the server and the client: an optional value and a JSON value. */
module Common {

  /** An optional value: Python's `None` or a present value. */
  datatype Option<+T> = None | Some(value: T) {
    /** The value, or `default` when absent: `d.get(key, default)` on a present/absent key. */
    function GetOr(default: T): T {
      match this
      case Some(v) => v
      case None => default
    }
  }

  /** A JSON value as a Flask handler sees it after `request.get_json()`.
      Floats, arrays and nested objects are not told apart: only their truth value is kept. */
  datatype Json =
    | JNull
    | JBool(b: bool)
    | JInt(i: int)
    | JStr(s: string)
    | JOther(truthy: bool)

  /** Python truthiness of a JSON value (`if not value:`). */
  predicate Truthy(j: Json) {
    match j
    case JNull => false
    case JBool(b) => b
    case JInt(i) => i != 0
    case JStr(s) => s != ""
    case JOther(t) => t
  }

  /** A JSON object request body. */
  type Body = map<string, Json>

  /** `data.get(key)`: the value stored under `key`, or `None`. */
  function Get(body: Body, key: string): (r: Option<Json>)
    ensures r.Some? <==> key in body
    ensures r.Some? ==> r.value == body[key]
  {
    if key in body then Some(body[key]) else None
  }

  /** `not data` for the parsed body: no body, or an empty object. */
  predicate MissingBody(body: Option<Body>) {
    body.None? || body.value == map[]
  }

  /** `not data.get(key)`: the key is absent or its value is falsy. */
  predicate MissingField(body: Body, key: string) {
    key !in body || !Truthy(body[key])
  }
}

=== FILE: end_to_end.dfy ===
/** The kiosk and the server together: the NFC reader's UID is sent to the scan route with the
    kiosk's bearer header (client/src/server_communication.py:149-158), the reply is classified by
    `validate_card`, and the screens show the resulting card status. */
module EndToEnd {
  import opened Common
  import B = BearerAuth
  import L = CardLedger
  import C = ClientState
  import S = ServerCommunication
  import U = Screens
  import N = NfcReader

  /** The header the kiosk sends. */
  function KioskHeader(apiToken: string): string {
    "Bearer " + apiToken
  }

  /** The kiosk's token unless the environment sets one (client/src/validator.py:27). */
  const DefaultToken := "$$$$.DEFAULT.0000"

  /** Any token without whitespace passes the server's header check; an empty one is refused. */
  lemma KioskHeaderAccepted(apiToken: string)
    ensures apiToken != [] && B.NoSpace(apiToken) ==> B.Check(Some(KioskHeader(apiToken))) == B.Authorized
    ensures apiToken == [] ==> B.Check(Some(KioskHeader(apiToken))) == B.Rejected(B.InvalidHeader)
  {
    assert B.AsciiLower("Bearer") == "bearer";
    if apiToken != [] && B.NoSpace(apiToken) {
      B.AcceptsAnyToken("", "Bearer", " ", apiToken, "");
      assert "" + "Bearer" + " " + apiToken + "" == KioskHeader(apiToken);
    }
    if apiToken == [] {
      assert B.NoSpace("Bearer");
      B.RejectsLoneWord("", "Bearer", " ");
      assert "" + "Bearer" + " " == KioskHeader(apiToken);
    }
  }

  lemma DefaultTokenAccepted()
    ensures B.Check(Some(KioskHeader(DefaultToken))) == B.Authorized
  {
    assert B.NoSpace(DefaultToken);
    KioskHeaderAccepted(DefaultToken);
  }

  /** The reader's UIDs are already upper case, so the server looks them up as sent. */
  lemma ReaderUidIsCanonical(bs: seq<N.byte>)
    ensures L.AsciiUpper(N.Hex(bs)) == N.Hex(bs)
  {
  }

  /** How the kiosk receives a scan reply. Its body is read only on a 200, which always carries
      card information; a stored status that is not a string is not modelled. */
  function Received(resp: L.Response): S.HttpOutcome {
    if resp.payload.CardInfo? then
      var info := resp.payload;
      S.Replied(resp.code, S.Parsed(S.ScanReply(
        if info.status.JStr? then Some(info.status.s) else None,
        Some(info.credits),
        if info.expiration.JStr? then Some(info.expiration.s) else None)))
    else S.Replied(resp.code, S.Parsed(S.ScanReply(None, None, None)))
  }

  /** What the kiosk records after presenting the card with bytes `bs` to the server holding `cards`. */
  function ValidationOf(cards: map<string, L.Card>, bs: seq<N.byte>): C.ValidationResult {
    S.ValidateCard(Received(L.Scan(cards, Some(L.ScanRequest(N.Hex(bs)))).response))
  }

  /** The scan route answers the reader's UID by its own entry, as stored. */
  lemma ScanOfReaderUid(cards: map<string, L.Card>, bs: seq<N.byte>)
    requires bs != []
    ensures var out := L.Scan(cards, Some(L.ScanRequest(N.Hex(bs))));
      && (N.Hex(bs) !in cards ==> out.response == L.Response(404, L.CardUnknown(L.NotFound, L.Invalid, 0, JNull)))
      && (N.Hex(bs) in cards ==>
            && out.response == L.Response(200, L.ScanCard(cards[N.Hex(bs)]).reply)
            && out.cards == cards[N.Hex(bs) := L.ScanCard(cards[N.Hex(bs)]).card])
  {
    var body := L.ScanRequest(N.Hex(bs));
    ReaderUidIsCanonical(bs);
    assert N.Hex(bs) != [];
    assert "card_uid" in body && body["card_uid"] == JStr(N.Hex(bs));
    assert !MissingBody(Some(body)) && !MissingField(body, "card_uid");
  }

  /** A card the server does not know makes the kiosk ask for the card again, in red. */
  lemma UnknownCardAsksToRetry(cards: map<string, L.Card>, bs: seq<N.byte>, lang: U.Lang)
    requires bs != [] && N.Hex(bs) !in cards
    ensures ValidationOf(cards, bs).status == "UNKNOWN"
    ensures U.BannerFor("UNKNOWN", lang) == U.Banner(U.RedBanner, U.LangGet(lang, "scan_card_again", "Try again"))
  {
    ScanOfReaderUid(cards, bs);
  }

  /** A VALID card with credits is shown green with its balance one lower. */
  lemma ValidCardShowsGreen(cards: map<string, L.Card>, bs: seq<N.byte>, lang: U.Lang, frameCount: nat)
    requires bs != [] && N.Hex(bs) in cards
    requires cards[N.Hex(bs)].status == Some(L.Valid) && L.StoredCredits(cards[N.Hex(bs)]) > 0
    ensures var v := ValidationOf(cards, bs);
      && v.success && v.status == "VALID"
      && v.credits == L.StoredCredits(cards[N.Hex(bs)]) - 1
      && U.BannerFor(v.status, lang).image == U.GreenBanner
      && U.DrawCard(true, v.status, frameCount).image == U.GreenCard
      && U.ValidationPanel(v.status, Some(v)).second == "Remaining credits: " + U.IntToString(v.credits)
  {
    ScanOfReaderUid(cards, bs);
  }

  /** A VALID card without credits is refused in red, and the server has switched it to INVALID. */
  lemma ExhaustedCardShowsInvalid(cards: map<string, L.Card>, bs: seq<N.byte>, lang: U.Lang, frameCount: nat)
    requires bs != [] && N.Hex(bs) in cards
    requires cards[N.Hex(bs)].status == Some(L.Valid) && L.StoredCredits(cards[N.Hex(bs)]) <= 0
    ensures var v := ValidationOf(cards, bs);
      && v.success && v.status == "INVALID"
      && U.BannerFor(v.status, lang).image == U.RedBanner
      && U.DrawCard(true, v.status, frameCount).image == U.RedCard
      && U.ValidationPanel(v.status, Some(v)) == U.Panel("", "Your card has been deactivated", "")
    ensures L.StoredStatus(L.Scan(cards, Some(L.ScanRequest(N.Hex(bs)))).cards[N.Hex(bs)]) == L.Invalid
  {
    ScanOfReaderUid(cards, bs);
  }

  /** A card stored without an expiration date reaches the panel as "Valid until: None" as
      written, and as "Valid until: N/A" once corrected. */
  lemma CardWithoutDateShowsNone(cards: map<string, L.Card>, bs: seq<N.byte>)
    requires bs != [] && N.Hex(bs) in cards
    requires cards[N.Hex(bs)].status == Some(L.Valid) && L.StoredCredits(cards[N.Hex(bs)]) > 0
    requires cards[N.Hex(bs)].expiration.None?
    ensures var v := ValidationOf(cards, bs);
      && U.PanelAsWritten(v.status, Some(v)).third == "Valid until: None"
      && U.ValidationPanel(v.status, Some(v)).third == "Valid until: N/A"
  {
    ScanOfReaderUid(cards, bs);
  }

  /** Any reply other than 200 or 404 (a rejected header, a bad body, a server fault) leaves the
      kiosk showing exactly what it shows with no card on the reader. */
  lemma FailedRequestLooksIdle(resp: L.Response, lang: U.Lang)
    requires resp.code != 200 && resp.code != 404
    ensures S.ValidateCard(Received(resp)).status == "ERROR"
    ensures U.BannerFor(S.ValidateCard(Received(resp)).status, lang) == U.BannerFor("", lang)
  {
  }
}

=== FILE: migration.dfy ===
/** The one-off migration of cards.json into Firestore (server/migrate_to_firebase.py): every
    entry is added to a write batch under its key as written, and a batch is committed after
    every 400th write and once more at the end for a partial batch. */
module Migration {

  /** Writes per committed batch; Firestore refuses batches of more than 500. */
  const BatchSize: nat := 400
  const FirestoreBatchLimit: nat := 500

  /** A `batch.set(collection.document(uid), info)` call. */
  type Write<V> = (string, V)

  /** The writes of a list of batches, in commit order. */
  function Flatten<V>(batches: seq<seq<Write<V>>>): seq<Write<V>> {
    if batches == [] then [] else Flatten(batches[..|batches| - 1]) + batches[|batches| - 1]
  }

  /** Every batch is non-empty and within the size limit, and every batch but the last is full. */
  ghost predicate WellBatched<V>(batches: seq<seq<Write<V>>>) {
    && (forall i :: 0 <= i < |batches| ==> 0 < |batches[i]| <= BatchSize)
    && (forall i :: 0 <= i < |batches| - 1 ==> |batches[i]| == BatchSize)
  }

  /** The migration loop (server/migrate_to_firebase.py:34-49) over the entries of cards.json in
      file order; it returns the committed batches and the final count. */
  method Migrate<V>(cardsData: seq<Write<V>>) returns (commits: seq<seq<Write<V>>>, count: nat)
    ensures count == |cardsData|
    ensures Flatten(commits) == cardsData
    ensures WellBatched(commits)
    ensures forall i :: 0 <= i < |commits| ==> |commits[i]| <= FirestoreBatchLimit
    ensures |commits| == (|cardsData| + BatchSize - 1) / BatchSize
    ensures commits != [] ==>
      |commits[|commits| - 1]| == if |cardsData| % BatchSize == 0 then BatchSize else |cardsData| % BatchSize
  {
    var batch: seq<Write<V>> := [];
    commits := [];
    count := 0;
    for i := 0 to |cardsData|
      invariant count == i
      invariant Flatten(commits) + batch == cardsData[..i]
      invariant |batch| == i % BatchSize
      invariant |commits| == i / BatchSize
      invariant forall j :: 0 <= j < |commits| ==> |commits[j]| == BatchSize
    {
      batch := batch + [cardsData[i]];
      count := count + 1;
      if count % BatchSize == 0 {
        commits := commits + [batch];
        assert Flatten(commits) == Flatten(commits[..|commits| - 1]) + batch;
        batch := [];
      }
    }
    if count % BatchSize != 0 {
      commits := commits + [batch];
      assert Flatten(commits) == Flatten(commits[..|commits| - 1]) + batch;
    }
    assert cardsData[..|cardsData|] == cardsData;
  }

  /** The collection after applying writes in order: a later write to a key replaces an earlier. */
  function Apply<V>(store: map<string, V>, writes: seq<Write<V>>): map<string, V> {
    if writes == [] then store
    else Apply(store, writes[..|writes| - 1])[writes[|writes| - 1].0 := writes[|writes| - 1].1]
  }

  /** The keys written. */
  ghost function KeysOf<V>(writes: seq<Write<V>>): set<string> {
    set i | 0 <= i < |writes| :: writes[i].0
  }

  /** Each key appears once, as the keys of a JSON object loaded by `json.load` do. */
  ghost predicate DistinctKeys<V>(writes: seq<Write<V>>) {
    forall i, j :: 0 <= i < j < |writes| ==> writes[i].0 != writes[j].0
  }

  /** With distinct keys, every entry ends up in the collection under its own key, holding its
      own record, and nothing else is written. */
  lemma {:induction false} ApplyStoresEveryEntry<V>(store: map<string, V>, writes: seq<Write<V>>)
    requires DistinctKeys(writes)
    ensures forall i :: 0 <= i < |writes| ==> writes[i].0 in Apply(store, writes) && Apply(store, writes)[writes[i].0] == writes[i].1
    ensures forall k :: k in Apply(store, writes) && (forall i :: 0 <= i < |writes| ==> writes[i].0 != k) ==>
      k in store && Apply(store, writes)[k] == store[k]
    ensures Apply(store, writes).Keys == store.Keys + KeysOf(writes)
  {
    if writes != [] {
      var prefix := writes[..|writes| - 1];
      ApplyStoresEveryEntry(store, prefix);
      assert forall i :: 0 <= i < |prefix| ==> prefix[i] == writes[i];
      var last := writes[|writes| - 1];
      assert KeysOf(writes) == KeysOf(prefix) + {last.0} by {
        forall k | k in KeysOf(writes) ensures k in KeysOf(prefix) + {last.0} {
          var i :| 0 <= i < |writes| && writes[i].0 == k;
          if i < |prefix| {
            assert prefix[i].0 == k;
          }
        }
      }
    }
  }
}

=== FILE: nfc_reader.dfy ===
/** The NFC reader (client/src/nfc_reader.py): an edge detector over successive sense results that
    keeps the UID of the card on the reader and reports a card arriving, changing or leaving. */
module NfcReader {
  import opened Common

  newtype byte = x: int | 0 <= x < 256

  /** An upper-case hex digit: what `.hex().upper()` emits. */
  predicate IsHexDigit(c: char) {
    '0' <= c <= '9' || 'A' <= c <= 'F'
  }

  /** The upper-case hex digit of a value below 16. */
  function HexDigit(d: nat): (c: char)
    requires d < 16
    ensures IsHexDigit(c)
  {
    if d < 10 then ('0' as int + d) as char else ('A' as int + d - 10) as char
  }

  /** The two hex digits of one byte, high digit first. */
  function HexPair(b: byte): string {
    [HexDigit(b as int / 16), HexDigit(b as int % 16)]
  }

  /** `bytes.hex().upper()`: two upper-case hex digits per byte. */
  function Hex(bs: seq<byte>): (s: string)
    ensures |s| == 2 * |bs|
    ensures forall i :: 0 <= i < |s| ==> IsHexDigit(s[i])
  {
    if bs == [] then [] else HexPair(bs[0]) + Hex(bs[1..])
  }

  /** The value of one hex digit (0 for any other character). */
  function DigitValue(c: char): (v: nat)
    ensures v < 16
  {
    if '0' <= c <= '9' then c as int - '0' as int
    else if 'A' <= c <= 'F' then c as int - 'A' as int + 10
    else 0
  }

  /** Reads a string of hex digit pairs back into bytes. */
  function Unhex(s: string): seq<byte>
    decreases |s|
  {
    if |s| < 2 then [] else [(DigitValue(s[0]) * 16 + DigitValue(s[1])) as byte] + Unhex(s[2..])
  }

  lemma HexPairValue(b: byte)
    ensures DigitValue(HexPair(b)[0]) * 16 + DigitValue(HexPair(b)[1]) == b as int
  {
  }

  /** Reading the digits back gives the bytes: no two byte strings share a UID. */
  lemma {:induction false} UnhexHex(bs: seq<byte>)
    ensures Unhex(Hex(bs)) == bs
  {
    if bs != [] {
      var s := Hex(bs);
      assert s == HexPair(bs[0]) + Hex(bs[1..]);
      assert s[0] == HexPair(bs[0])[0] && s[1] == HexPair(bs[0])[1];
      HexPairValue(bs[0]);
      assert s[2..] == Hex(bs[1..]);
      UnhexHex(bs[1..]);
    }
  }

  /** A target returned by `sense()`; `sddRes` is missing for targets without an SDD response. */
  datatype Target = Target(sddRes: Option<seq<byte>>)

  /** One poll of the reader: no target within the timeout, a target, or an exception. */
  datatype Sense = NoTarget | Found(target: Target) | SenseFailed

  /** `_extract_uid` (client/src/nfc_reader.py:133-142): the upper-case hex of the SDD response,
      or `None` when reading it fails. */
  function ExtractUid(t: Target): (r: Option<string>)
    ensures r.Some? <==> t.sddRes.Some?
    ensures r.Some? ==> |r.value| == 2 * |t.sddRes.value|
    ensures r.Some? ==> forall i :: 0 <= i < |r.value| ==> IsHexDigit(r.value[i])
    ensures r.Some? ==> Unhex(r.value) == t.sddRes.value
  {
    match t.sddRes
    case None => None
    case Some(bs) => UnhexHex(bs); Some(Hex(bs))
  }

  /** A callback the reader fires. */
  datatype Event = CardDetected(uid: string) | CardRemoved

  function Events(e: Option<Event>): seq<Event> {
    if e.Some? then [e.value] else []
  }

  /** The reader's new current UID and the callback fired, if any. */
  datatype Step = Step(next: Option<string>, event: Option<Event>)

  /** One iteration of `_reader_loop` (client/src/nfc_reader.py:99-121) from current UID `cur`. */
  function Transition(cur: Option<string>, s: Sense): (r: Step)
    ensures r.event.None? ==> r.next == cur
    ensures r.event.Some? && r.event.value.CardDetected? ==>
      r.next == Some(r.event.value.uid) && r.event.value.uid != "" && r.next != cur
    ensures r.event == Some(CardRemoved) ==> cur.Some? && r.next.None? && s.NoTarget?
    // only a sensed target is ever reported, and under its own UID
    ensures r.event.Some? && r.event.value.CardDetected? ==>
      s.Found? && ExtractUid(s.target) == Some(r.event.value.uid)
    // a target without a readable UID, with an empty one, or with the current one changes nothing
    ensures (s.Found? && (ExtractUid(s.target).None? || ExtractUid(s.target) == Some("")
             || ExtractUid(s.target) == cur)) ==> r == Step(cur, None)
    // an empty poll with no card on the reader changes nothing
    ensures s.NoTarget? && cur.None? ==> r == Step(cur, None)
    // a target whose non-empty UID differs from the current one is always reported, with no removal first
    ensures (s.Found? && ExtractUid(s.target).Some? && ExtractUid(s.target).value != ""
             && ExtractUid(s.target) != cur) ==> r.event == Some(CardDetected(ExtractUid(s.target).value))
    // an empty poll reports a removal exactly when a card was present
    ensures s.NoTarget? ==> (r.event == Some(CardRemoved) <==> cur.Some?)
    ensures s.SenseFailed? ==> r == Step(cur, None)
  {
    match s
    case SenseFailed => Step(cur, None)
    case NoTarget => if cur.Some? then Step(None, Some(CardRemoved)) else Step(cur, None)
    case Found(t) =>
      var uid := ExtractUid(t);
      if uid.Some? && uid.value != "" && uid != cur then Step(uid, Some(CardDetected(uid.value)))
      else Step(cur, None)
  }

  /** The current UID and the callbacks fired over a run of polls. */
  datatype Trace = Trace(current: Option<string>, events: seq<Event>)

  function Run(cur: Option<string>, senses: seq<Sense>): Trace {
    if senses == [] then Trace(cur, [])
    else
      var before := Run(cur, senses[..|senses| - 1]);
      var step := Transition(before.current, senses[|senses| - 1]);
      Trace(step.next, before.events + Events(step.event))
  }

  /** The card on the reader as implied by the callbacks alone: the last detection, or none after
      a removal, or the starting card when nothing was fired. */
  function Replay(cur: Option<string>, events: seq<Event>): Option<string> {
    if events == [] then cur
    else match events[|events| - 1]
      case CardDetected(u) => Some(u)
      case CardRemoved => None
  }

  /** An event that can follow when the card on the reader is `cur`. */
  predicate Admissible(cur: Option<string>, e: Event) {
    match e
    case CardDetected(u) => u != "" && cur != Some(u)
    case CardRemoved => cur.Some?
  }

  /** Every event of the trace is admissible where it occurs. */
  predicate Coherent(cur: Option<string>, events: seq<Event>) {
    events == []
    || (Coherent(cur, events[..|events| - 1])
        && Admissible(Replay(cur, events[..|events| - 1]), events[|events| - 1]))
  }

  /** The reader's state is exactly what its callbacks imply, and it only fires a removal while a
      card is present and a detection for a new non-empty UID. */
  lemma {:induction false} RunIsCoherent(cur: Option<string>, senses: seq<Sense>)
    ensures Run(cur, senses).current == Replay(cur, Run(cur, senses).events)
    ensures Coherent(cur, Run(cur, senses).events)
  {
    if senses != [] {
      var prefix := senses[..|senses| - 1];
      RunIsCoherent(cur, prefix);
      var before := Run(cur, prefix);
      var step := Transition(before.current, senses[|senses| - 1]);
      var events := before.events + Events(step.event);
      if step.event.Some? {
        assert events[..|events| - 1] == before.events;
      } else {
        assert events == before.events;
      }
    }
  }

  /** In a coherent trace two removals never follow each other and a detection is never repeated
      for the card already reported. */
  lemma {:induction false} NoRepeatedEdges(cur: Option<string>, events: seq<Event>)
    requires Coherent(cur, events)
    ensures forall i :: 0 < i < |events| ==> events[i] != events[i - 1]
  {
    if events != [] {
      var prefix := events[..|events| - 1];
      NoRepeatedEdges(cur, prefix);
      if |events| > 1 {
        assert prefix[..|prefix| - 1] == events[..|events| - 2];
        assert Replay(cur, prefix) == Replay(cur, events[..|events| - 1]);
      }
      forall i | 0 < i < |events| ensures events[i] != events[i - 1] {
        if i < |events| - 1 {
          assert events[i] == prefix[i] && events[i - 1] == prefix[i - 1];
        }
      }
    }
  }

  /** The reader object: the frontend handle, the running flag of its thread and the UID of the
      card on it; `fired` records the callbacks invoked, in order. The kiosk always passes both
      callbacks (client/src/validator.py:91-95). */
  class Reader {
    var frontendOpen: bool
    var running: bool
    var currentUid: Option<string>
    var loopsStarted: nat
    var fired: seq<Event>

    /** client/src/nfc_reader.py:40-47. */
    constructor ()
      ensures !frontendOpen && !running && currentUid.None? && loopsStarted == 0 && fired == []
    {
      frontendOpen, running, currentUid := false, false, None;
      loopsStarted, fired := 0, [];
    }

    /** `connect`: opens the frontend when the library and the device are available. */
    method Connect(deviceAvailable: bool) returns (ok: bool)
      modifies this
      ensures ok == deviceAvailable
      ensures frontendOpen == (old(frontendOpen) || deviceAvailable)
      ensures running == old(running) && currentUid == old(currentUid) && fired == old(fired)
      ensures loopsStarted == old(loopsStarted)
    {
      if deviceAvailable {
        frontendOpen := true;
      }
      ok := deviceAvailable;
    }

    /** `disconnect`: closes and drops the frontend. */
    method Disconnect()
      modifies this
      ensures !frontendOpen
      ensures running == old(running) && currentUid == old(currentUid) && fired == old(fired)
      ensures loopsStarted == old(loopsStarted)
    {
      frontendOpen := false;
    }

    /** `start`: a second start while running starts no second loop. */
    method Start()
      modifies this
      ensures running
      ensures loopsStarted == old(loopsStarted) + (if old(running) then 0 else 1)
      ensures frontendOpen == old(frontendOpen) && currentUid == old(currentUid) && fired == old(fired)
    {
      if !running {
        running := true;
        loopsStarted := loopsStarted + 1;
      }
    }

    /** `stop`: clears the running flag and drops the frontend. */
    method Stop()
      modifies this
      ensures !running && !frontendOpen
      ensures currentUid == old(currentUid) && fired == old(fired) && loopsStarted == old(loopsStarted)
    {
      running := false;
      Disconnect();
    }

    /** `is_connected`: running and holding a frontend. */
    method IsConnected() returns (connected: bool)
      ensures connected <==> running && frontendOpen
    {
      connected := running && frontendOpen;
    }

    /** One pass of the loop body. */
    method ReadOnce(s: Sense)
      modifies this
      ensures currentUid == Transition(old(currentUid), s).next
      ensures fired == old(fired) + Events(Transition(old(currentUid), s).event)
      ensures running == old(running) && frontendOpen == old(frontendOpen) && loopsStarted == old(loopsStarted)
    {
      match s
      case SenseFailed =>
      case Found(t) =>
        var uid := ExtractUid(t);
        if uid.Some? && uid.value != "" && uid != currentUid {
          currentUid := uid;
          fired := fired + [CardDetected(uid.value)];
        }
      case NoTarget =>
        if currentUid.Some? {
          fired := fired + [CardRemoved];
          currentUid := None;
        }
    }

    /** `_reader_loop` over the polls `senses`: nothing happens unless the frontend opens, and
        the loop runs only while the running flag is set. */
    method ReaderLoop(deviceAvailable: bool, senses: seq<Sense>)
      modifies this
      ensures deviceAvailable ==> frontendOpen
      ensures !deviceAvailable ==> frontendOpen == old(frontendOpen)
      ensures running == old(running) && loopsStarted == old(loopsStarted)
      ensures deviceAvailable && running ==>
        currentUid == Run(old(currentUid), senses).current && fired == old(fired) + Run(old(currentUid), senses).events
      ensures !deviceAvailable || !running ==> currentUid == old(currentUid) && fired == old(fired)
    {
      var ok := Connect(deviceAvailable);
      if !ok {
        return;
      }
      var i := 0;
      while running && i < |senses|
        invariant 0 <= i <= |senses|
        invariant frontendOpen && running == old(running) && loopsStarted == old(loopsStarted)
        invariant !running ==> i == 0
        invariant currentUid == Run(old(currentUid), senses[..i]).current
        invariant fired == old(fired) + Run(old(currentUid), senses[..i]).events
      {
        assert senses[..i + 1][..i] == senses[..i];
        ReadOnce(senses[i]);
        i := i + 1;
      }
      if running {
        assert senses[..i] == senses;
      }
    }
  }
}

=== FILE: screens.dfy ===
/** What the kiosk's screens choose to show (client/src/screens.py): the splash screen's
    redraw-on-change flag, and the main screen's banner, validation panel, buttons, card image and
    idle card animation as functions of the shared status. Surfaces, fonts, images and positions
    are not modelled; a drawing is the choice it makes. */
module Screens {
  import opened Common
  import opened ClientState

  type Colour = (int, int, int)

  /** The splash screen with the redraw logic it inherits from `Screen`. */
  class SplashScreen {
    var text: string
    var color: Colour
    var changed: bool
    /** The text and colour of every draw so far, oldest first. */
    ghost var drawn: seq<(string, Colour)>

    /** client/src/screens.py:20-35, with `changed` starting true as the class attribute does. */
    constructor (text: string, color: Colour)
      ensures this.text == text && this.color == color && changed && drawn == []
    {
      this.text := text;
      this.color := color;
      changed := true;
      drawn := [];
    }

    /** `Screen.update`: draws only when something changed since the last draw, then clears the
        flag, so of two updates in a row the second draws nothing. */
    method Update(frameCount: nat)
      modifies this`changed, this`drawn
      ensures !changed
      ensures drawn == old(drawn) + if old(changed) then [(text, color)] else []
    {
      if changed {
        drawn := drawn + [(text, color)];
        changed := false;
      }
    }

    /** `set_text`. */
    method SetText(text: string)
      modifies this`text, this`changed
      ensures this.text == text && changed
    {
      this.text := text;
      changed := true;
    }

    /** `set_color`. */
    method SetColor(color: Colour)
      modifies this`color, this`changed
      ensures this.color == color && changed
    {
      this.color := color;
      changed := true;
    }
  }

  /** The strings table of the kiosk; `lang.get(key, fallback)` reads it. */
  type Lang = map<string, string>

  function LangGet(lang: Lang, key: string, fallback: string): (r: string)
    ensures key in lang ==> r == lang[key]
    ensures key !in lang ==> r == fallback
  {
    if key in lang then lang[key] else fallback
  }

  /** The kiosk's strings (client/src/validator.py:31-44). */
  const KioskLang: Lang := map[
    "loading" := "Please wait...",
    "contact_server" := "Contacting server...",
    "no_connection" := "No connection to server.",
    "error" := "An error has occurred.",
    "line_label" := "Line",
    "scan_card" := "Scan your card",
    "scan_card_again" := "Try again",
    "validating" := "Validating card...",
    "have_a_nice_day" := "Have a good trip!",
    "invalid_card" := "Invalid card",
    "expired_card" := "Expired card",
    "insufficient_credits" := "Insufficient credits"
  ]

  /** Statuses the server stores for a card that may not travel. */
  predicate Refused(cardStatus: string) {
    cardStatus == "INVALID" || cardStatus == "EXPIRED" || cardStatus == "INSUFFICIENT_CREDITS"
  }

  /** Statuses that ask for the card to be presented again. */
  predicate Retry(cardStatus: string) {
    cardStatus == "UNKNOWN" || cardStatus == "TRY_AGAIN"
  }

  /** Statuses for which `draw_ui` shows the validation panel instead of the buttons. */
  predicate ShowsPanel(cardStatus: string) {
    cardStatus == "VALID" || Refused(cardStatus)
  }

  datatype BannerImage = BlueBanner | GreenBanner | RedBanner
  datatype Banner = Banner(image: BannerImage, text: string)

  /** `draw_banner` (client/src/screens.py:232-255): a total choice over the card status. */
  function BannerFor(cardStatus: string, lang: Lang): (r: Banner)
    ensures r.image == GreenBanner <==> cardStatus == "VALID"
    ensures r.image == RedBanner <==> Refused(cardStatus) || Retry(cardStatus)
    ensures r.image == BlueBanner <==> !ShowsPanel(cardStatus) && !Retry(cardStatus)
    ensures cardStatus == "VALID" ==> r.text == LangGet(lang, "have_a_nice_day", "Have a good trip!")
    ensures cardStatus == "INVALID" ==> r.text == LangGet(lang, "invalid_card", "Invalid card")
    ensures cardStatus == "EXPIRED" ==> r.text == LangGet(lang, "expired_card", "Expired card")
    ensures cardStatus == "INSUFFICIENT_CREDITS" ==>
      r.text == LangGet(lang, "insufficient_credits", "Insufficient credits")
    ensures cardStatus == "LOADING" ==> r.text == LangGet(lang, "validating", "Validating card...")
    ensures Retry(cardStatus) ==> r.text == LangGet(lang, "scan_card_again", "Try again")
    ensures !ShowsPanel(cardStatus) && !Retry(cardStatus) && cardStatus != "LOADING" ==>
      r.text == LangGet(lang, "scan_card", "Scan your card")
  {
    if cardStatus == "VALID" then Banner(GreenBanner, LangGet(lang, "have_a_nice_day", "Have a good trip!"))
    else if cardStatus == "INVALID" then Banner(RedBanner, LangGet(lang, "invalid_card", "Invalid card"))
    else if cardStatus == "EXPIRED" then Banner(RedBanner, LangGet(lang, "expired_card", "Expired card"))
    else if cardStatus == "INSUFFICIENT_CREDITS" then
      Banner(RedBanner, LangGet(lang, "insufficient_credits", "Insufficient credits"))
    else if cardStatus == "LOADING" then Banner(BlueBanner, LangGet(lang, "validating", "Validating card..."))
    else if Retry(cardStatus) then Banner(RedBanner, LangGet(lang, "scan_card_again", "Try again"))
    else Banner(BlueBanner, LangGet(lang, "scan_card", "Scan your card"))
  }

  /** The kiosk's strings are the English fallbacks: with them every banner reads as with an
      empty table. */
  lemma KioskLangIsTheFallback(cardStatus: string)
    ensures BannerFor(cardStatus, KioskLang) == BannerFor(cardStatus, map[])
  {
  }

  /** A failed validation that is not a 404 leaves the kiosk looking idle: the ERROR banner is the
      one shown with no card on the reader. */
  lemma ErrorLooksIdle(lang: Lang)
    ensures BannerFor("ERROR", lang) == BannerFor("", lang)
    ensures BannerFor("", lang).image == BlueBanner
  {
  }

  /** The decimal digit `d`. */
  function DigitChar(d: nat): (c: char)
    requires d < 10
    ensures '0' <= c <= '9'
  {
    (48 + d) as char
  }

  predicate AllDigits(s: string) {
    forall i :: 0 <= i < |s| ==> '0' <= s[i] <= '9'
  }

  /** Python's `str` of a non-negative int: its decimal digits, without leading zeros. */
  function NatToDecimal(n: nat): (r: string)
    ensures r != [] && AllDigits(r)
    ensures n > 0 ==> r[0] != '0'
    decreases n
  {
    if n < 10 then [DigitChar(n)] else NatToDecimal(n / 10) + [DigitChar(n % 10)]
  }

  /** The number a string of decimal digits denotes. */
  function DecimalValue(s: string): nat
    requires AllDigits(s)
  {
    if s == [] then 0 else DecimalValue(s[..|s| - 1]) * 10 + (s[|s| - 1] as int - 48)
  }

  lemma {:induction false} DecimalRoundTrip(n: nat)
    ensures DecimalValue(NatToDecimal(n)) == n
    decreases n
  {
    if n >= 10 {
      DecimalRoundTrip(n / 10);
      var r := NatToDecimal(n);
      assert r[..|r| - 1] == NatToDecimal(n / 10);
    }
  }

  /** Python's `str` of an int. */
  function IntToString(i: int): (r: string)
    ensures i >= 0 ==> r == NatToDecimal(i)
    ensures i < 0 ==> |r| > 1 && r[0] == '-' && r[1..] == NatToDecimal(-i)
  {
    if i < 0 then "-" + NatToDecimal(-i) else NatToDecimal(i)
  }

  /** The three lines of the validation panel. */
  datatype Panel = Panel(first: string, second: string, third: string)

  const EmptyPanel := Panel("", "", "")

  /** Statuses whose panel reads the last validation. */
  predicate ReadsValidation(cardStatus: string) {
    cardStatus == "VALID" || cardStatus == "EXPIRED"
  }

  /** The f-string rendering of the result's expiration as the source writes it: the key is
      always present in the result, so an absent date renders as Python's `str(None)`. */
  function ShownExpirationAsWritten(expiration: Option<string>): (r: string)
    ensures expiration.None? ==> r == "None"
    ensures expiration.Some? ==> r == expiration.value
  {
    match expiration
    case Some(date) => date
    case None => "None"
  }

  /** The rendering the `'N/A'` default evidently intends for an absent date. */
  function ShownExpiration(expiration: Option<string>): (r: string)
    ensures expiration.None? ==> r == "N/A"
    ensures expiration.Some? ==> r == expiration.value
  {
    expiration.GetOr("N/A")
  }

  /** `draw_validation_status` as written (client/src/screens.py:177-191). */
  function PanelAsWritten(cardStatus: string, validation: Option<ValidationResult>): (r: Panel)
    requires ReadsValidation(cardStatus) ==> validation.Some?
    ensures r == EmptyPanel <==> !ShowsPanel(cardStatus)
    ensures cardStatus == "VALID" ==>
      r == Panel("Card validated for 1 trip",
                 "Remaining credits: " + IntToString(validation.value.credits),
                 "Valid until: " + ShownExpirationAsWritten(validation.value.expiration))
    ensures cardStatus == "INVALID" ==> r == Panel("", "Your card has been deactivated", "")
    ensures cardStatus == "EXPIRED" ==>
      r == Panel("Your transit pass is expired",
                 "Expired on: " + ShownExpirationAsWritten(validation.value.expiration), "")
    ensures cardStatus == "INSUFFICIENT_CREDITS" ==>
      r == Panel("You do not have enough credits", "Please recharge your card", "")
  {
    if cardStatus == "VALID" then
      Panel("Card validated for 1 trip",
            "Remaining credits: " + IntToString(validation.value.credits),
            "Valid until: " + ShownExpirationAsWritten(validation.value.expiration))
    else if cardStatus == "INVALID" then Panel("", "Your card has been deactivated", "")
    else if cardStatus == "EXPIRED" then
      Panel("Your transit pass is expired",
            "Expired on: " + ShownExpirationAsWritten(validation.value.expiration), "")
    else if cardStatus == "INSUFFICIENT_CREDITS" then
      Panel("You do not have enough credits", "Please recharge your card", "")
    else EmptyPanel
  }

  /** `draw_validation_status` with an absent date shown as N/A. */
  function ValidationPanel(cardStatus: string, validation: Option<ValidationResult>): (r: Panel)
    requires ReadsValidation(cardStatus) ==> validation.Some?
    ensures r == EmptyPanel <==> !ShowsPanel(cardStatus)
    ensures cardStatus == "VALID" ==>
      r == Panel("Card validated for 1 trip",
                 "Remaining credits: " + IntToString(validation.value.credits),
                 "Valid until: " + ShownExpiration(validation.value.expiration))
    ensures cardStatus == "INVALID" ==> r == Panel("", "Your card has been deactivated", "")
    ensures cardStatus == "EXPIRED" ==>
      r == Panel("Your transit pass is expired",
                 "Expired on: " + ShownExpiration(validation.value.expiration), "")
    ensures cardStatus == "INSUFFICIENT_CREDITS" ==>
      r == Panel("You do not have enough credits", "Please recharge your card", "")
  {
    if cardStatus == "VALID" then
      Panel("Card validated for 1 trip",
            "Remaining credits: " + IntToString(validation.value.credits),
            "Valid until: " + ShownExpiration(validation.value.expiration))
    else if cardStatus == "INVALID" then Panel("", "Your card has been deactivated", "")
    else if cardStatus == "EXPIRED" then
      Panel("Your transit pass is expired", "Expired on: " + ShownExpiration(validation.value.expiration), "")
    else if cardStatus == "INSUFFICIENT_CREDITS" then
      Panel("You do not have enough credits", "Please recharge your card", "")
    else EmptyPanel
  }

  /** The written panel and the corrected one differ only where a date is read and absent. */
  lemma PanelsDifferOnlyOnAbsentDate(cardStatus: string, validation: Option<ValidationResult>)
    requires ReadsValidation(cardStatus) ==> validation.Some?
    ensures PanelAsWritten(cardStatus, validation) != ValidationPanel(cardStatus, validation) <==>
      ReadsValidation(cardStatus) && validation.value.expiration.None?
  {
  }

  /** A card the server reports VALID with no expiration date is shown as valid until "None". */
  lemma PanelShowsNoneAsWritten(credits: int)
    ensures PanelAsWritten("VALID", Some(ValidationResult(true, "VALID", credits, None, None))).third
      == "Valid until: None"
    ensures ValidationPanel("VALID", Some(ValidationResult(true, "VALID", credits, None, None))).third
      == "Valid until: N/A"
  {
  }

  /** The credits line reads back as the balance of the validation. */
  lemma CreditsLineReadsBack(validation: ValidationResult)
    requires validation.credits >= 0
    ensures var line := ValidationPanel("VALID", Some(validation)).second;
      |line| > 19 && AllDigits(line[19..]) && DecimalValue(line[19..]) == validation.credits
  {
    var line := ValidationPanel("VALID", Some(validation)).second;
    assert line[19..] == NatToDecimal(validation.credits);
    DecimalRoundTrip(validation.credits);
  }

  /** The area between the status bars and the banner. */
  datatype Middle = PanelArea(panel: Panel) | Buttons

  datatype Ui = Ui(middle: Middle, banner: Banner)

  /** `draw_ui` (client/src/screens.py:269-285): the panel for a verdict, the buttons otherwise,
      and the banner always. The status bars show the clock and are not modelled. */
  function DrawUi(cardStatus: string, lastValidation: Option<ValidationResult>, lang: Lang): (r: Ui)
    requires ReadsValidation(cardStatus) ==> lastValidation.Some?
    ensures r.middle.PanelArea? <==> ShowsPanel(cardStatus)
    ensures r.middle.PanelArea? ==> r.middle.panel != EmptyPanel
    ensures r.middle.PanelArea? ==> r.middle.panel == ValidationPanel(cardStatus, lastValidation)
    ensures r.banner == BannerFor(cardStatus, lang)
  {
    var middle := if ShowsPanel(cardStatus) then PanelArea(ValidationPanel(cardStatus, lastValidation)) else Buttons;
    Ui(middle, BannerFor(cardStatus, lang))
  }

  /** The shared status always satisfies what drawing the panel needs. */
  lemma ValidStatusIsDrawable(status: Status)
    requires status.Valid()
    ensures ReadsValidation(status.cardStatus) ==> status.lastValidation.Some?
  {
  }

  datatype CardImage = PlainCard | GreenCard | RedCard
  datatype Phase = FadeIn | FullyVisible | FadeOut

  /** Frames per phase of the idle animation. */
  const FadeDuration: nat := 10

  /** Position within the 30-frame idle cycle. */
  function CycleFrame(frameCount: nat): (r: nat)
    ensures r < 3 * FadeDuration
    ensures r <= frameCount && (frameCount - r) % (3 * FadeDuration) == 0
  {
    frameCount % (3 * FadeDuration)
  }

  /** client/src/screens.py:305-315: which third of the cycle a frame falls in. */
  function AnimationPhase(frameCount: nat): (r: Phase)
    ensures r == FadeIn <==> CycleFrame(frameCount) < FadeDuration
    ensures r == FadeOut <==> CycleFrame(frameCount) >= 2 * FadeDuration
  {
    var c := CycleFrame(frameCount);
    if c < FadeDuration then FadeIn else if c < 2 * FadeDuration then FullyVisible else FadeOut
  }

  /** The idle card's opacity, with integer floors where the source multiplies floats. */
  function IdleOpacity(frameCount: nat): (r: int)
    ensures 0 <= r <= 255
    ensures AnimationPhase(frameCount) == FullyVisible ==> r == 255
    ensures AnimationPhase(frameCount) == FadeIn ==> r < 255
    ensures CycleFrame(frameCount) == 0 ==> r == 0
  {
    var c := CycleFrame(frameCount);
    if c < FadeDuration then (c * 255) / FadeDuration
    else if c < 2 * FadeDuration then 255
    else ((3 * FadeDuration - c) * 255) / FadeDuration
  }

  /** Within a cycle the card brightens while fading in and dims while fading out. */
  lemma FadesAreMonotone(f: nat, g: nat)
    requires f / 30 == g / 30 && f <= g
    ensures AnimationPhase(f) == FadeIn && AnimationPhase(g) == FadeIn ==> IdleOpacity(f) <= IdleOpacity(g)
    ensures AnimationPhase(f) == FadeOut && AnimationPhase(g) == FadeOut ==> IdleOpacity(f) >= IdleOpacity(g)
  {
  }

  /** The idle animation repeats every 30 frames. */
  lemma IdleCycleRepeats(frameCount: nat)
    ensures AnimationPhase(frameCount + 30) == AnimationPhase(frameCount)
    ensures IdleOpacity(frameCount + 30) == IdleOpacity(frameCount)
  {
  }

  datatype CardView = CardView(image: CardImage, opacity: int)

  /** `draw_card` (client/src/screens.py:287-315): a card on the reader is shown opaque in the
      colour of its verdict; with no card the plain card fades in and out. */
  function DrawCard(cardActive: bool, cardStatus: string, frameCount: nat): (r: CardView)
    ensures 0 <= r.opacity <= 255
    ensures cardActive ==> r.opacity == 255
    ensures !cardActive ==> r.opacity == IdleOpacity(frameCount)
    ensures r.image == RedCard <==> cardActive && Refused(cardStatus)
    ensures r.image == GreenCard <==> cardActive && cardStatus == "VALID"
  {
    if cardActive then
      CardView(if Refused(cardStatus) then RedCard else if cardStatus == "VALID" then GreenCard else PlainCard, 255)
    else CardView(PlainCard, IdleOpacity(frameCount))
  }

  /** A card on the reader is drawn in the colour of the banner whenever it shows a verdict. */
  lemma CardMatchesBanner(cardStatus: string, lang: Lang, frameCount: nat)
    requires ShowsPanel(cardStatus)
    ensures DrawCard(true, cardStatus, frameCount).image == GreenCard <==> BannerFor(cardStatus, lang).image == GreenBanner
    ensures DrawCard(true, cardStatus, frameCount).image == RedCard <==> BannerFor(cardStatus, lang).image == RedBanner
  {
  }
}

=== FILE: server_communication.dfy ===
/** The kiosk's link to the server (client/src/server_communication.py): the base-URL
    normalisation, the classification of a scan request's outcome, and the ping loop that keeps
    `connected` and `ready` in the shared status. HTTP calls become their outcomes, as inputs. */
module ServerCommunication {
  import opened Common
  import opened ClientState

  /** `api_url.rstrip("/")`: the input without its run of trailing slashes. */
  function TrimTrailingSlashes(url: string): (r: string)
    ensures r <= url
    ensures forall i :: |r| <= i < |url| ==> url[i] == '/'
    ensures r == [] || r[|r| - 1] != '/'
    decreases |url|
  {
    if url != [] && url[|url| - 1] == '/' then TrimTrailingSlashes(url[..|url| - 1]) else url
  }

  /** The fields `validate_card` reads from a 200 body. `None` is an absent key (for the
      expiration, a JSON null reads the same); a status, credits or expiration of another JSON type
      is not modelled. */
  datatype ScanReply = ScanReply(status: Option<string>, credits: Option<int>, expiration: Option<string>)

  /** A response body: JSON, or something `response.json()` raises on. */
  datatype ReplyBody = Parsed(reply: ScanReply) | Unparsable(message: string)

  /** How a `requests.post` to the scan route ended. */
  datatype HttpOutcome =
    | Replied(code: int, body: ReplyBody)
    | TimedOut
    | ConnectionFailed
    | Raised(message: string)

  /** `validate_card` (client/src/server_communication.py:148-226) on the outcome of its request. */
  function ValidateCard(o: HttpOutcome): (r: ValidationResult)
    ensures r.success <==> o.Replied? && o.code == 200 && o.body.Parsed?
    ensures r.success ==>
      && r.status == o.body.reply.status.GetOr("OK")
      && r.credits == o.body.reply.credits.GetOr(0)
      && r.expiration == o.body.reply.expiration
      && r.error.None?
    ensures !r.success ==> r.credits == 0 && r.expiration.None? && r.error.Some?
    ensures !r.success ==> (r.status == "UNKNOWN" <==> o.Replied? && o.code == 404)
    ensures !r.success && r.status != "UNKNOWN" ==> r.status == "ERROR"
    ensures o.Replied? && o.code == 404 ==> r.error == Some(CardNotFound)
    ensures o.Replied? && o.code != 200 && o.code != 404 ==> r.error == Some(ServerStatus(o.code))
    ensures o.Replied? && o.code == 200 && o.body.Unparsable? ==> r.error == Some(Unexpected(o.body.message))
    ensures o.TimedOut? ==> r.error == Some(RequestTimeout)
    ensures o.ConnectionFailed? ==> r.error == Some(ConnectionError)
    ensures o.Raised? ==> r.error == Some(Unexpected(o.message))
  {
    match o
    case Replied(code, body) =>
      if code == 200 then
        match body
        case Parsed(reply) =>
          ValidationResult(true, reply.status.GetOr("OK"), reply.credits.GetOr(0), reply.expiration, None)
        case Unparsable(message) => ValidationResult(false, "ERROR", 0, None, Some(Unexpected(message)))
      else if code == 404 then ValidationResult(false, "UNKNOWN", 0, None, Some(CardNotFound))
      else ValidationResult(false, "ERROR", 0, None, Some(ServerStatus(code)))
    case TimedOut => ValidationResult(false, "ERROR", 0, None, Some(RequestTimeout))
    case ConnectionFailed => ValidationResult(false, "ERROR", 0, None, Some(ConnectionError))
    case Raised(message) => ValidationResult(false, "ERROR", 0, None, Some(Unexpected(message)))
  }

  /** How a ping `requests.post` ended. */
  datatype PingOutcome = PingReplied(code: int) | PingTimedOut | PingConnectionFailed | PingRaised

  /** `_ping_server` (client/src/server_communication.py:88-129): true only for a 200 reply;
      another code, a timeout, a connection error or any other exception is a failed ping. */
  function PingServer(o: PingOutcome): (r: bool)
    ensures r <==> o == PingReplied(200)
    ensures o.PingTimedOut? || o.PingConnectionFailed? || o.PingRaised? ==> !r
  {
    match o
    case PingReplied(code) => code == 200
    case _ => false
  }

  /** `consecutive_pings` after a run of ping outcomes starting from `count`. */
  function Streak(count: nat, outcomes: seq<PingOutcome>): nat {
    if outcomes == [] then count
    else
      var before := Streak(count, outcomes[..|outcomes| - 1]);
      if PingServer(outcomes[|outcomes| - 1]) then before + 1 else 0
  }

  predicate AllSucceed(outcomes: seq<PingOutcome>) {
    forall i :: 0 <= i < |outcomes| ==> PingServer(outcomes[i])
  }

  /** The counter counts the successes since the last failure, and adds them to the starting count
      only when no ping failed. */
  lemma {:induction false} StreakCountsSinceLastFailure(count: nat, outcomes: seq<PingOutcome>)
    ensures AllSucceed(outcomes) ==> Streak(count, outcomes) == count + |outcomes|
    ensures !AllSucceed(outcomes) ==>
      var s := Streak(count, outcomes);
      && s < |outcomes|
      && !PingServer(outcomes[|outcomes| - s - 1])
      && (forall i :: |outcomes| - s <= i < |outcomes| ==> PingServer(outcomes[i]))
  {
    if outcomes != [] {
      var prefix := outcomes[..|outcomes| - 1];
      StreakCountsSinceLastFailure(count, prefix);
      assert forall i :: 0 <= i < |prefix| ==> prefix[i] == outcomes[i];
      if AllSucceed(outcomes) {
        assert AllSucceed(prefix);
      }
    }
  }

  /** The communication object: its base URL, the running flag of its ping thread and the
      consecutive-ping counter; `status` is the dictionary shared with the rest of the kiosk. */
  class ServerComm {
    const apiUrl: string
    const apiToken: string
    const lineName: string
    const status: Status
    var running: bool
    var consecutivePings: nat
    var loopsStarted: nat

    /** client/src/server_communication.py:40-50. */
    constructor (apiUrl: string, apiToken: string, lineName: string, status: Status)
      ensures this.apiUrl == TrimTrailingSlashes(apiUrl)
      ensures this.apiToken == apiToken && this.lineName == lineName && this.status == status
      ensures !running && consecutivePings == 0 && loopsStarted == 0
    {
      this.apiUrl := TrimTrailingSlashes(apiUrl);
      this.apiToken := apiToken;
      this.lineName := lineName;
      this.status := status;
      running := false;
      consecutivePings := 0;
      loopsStarted := 0;
    }

    /** `start`: a second start while running starts no second ping loop. */
    method Start()
      modifies this
      ensures running
      ensures loopsStarted == old(loopsStarted) + (if old(running) then 0 else 1)
      ensures consecutivePings == old(consecutivePings)
    {
      if !running {
        running := true;
        loopsStarted := loopsStarted + 1;
      }
    }

    /** `stop`: clears the running flag. */
    method Stop()
      modifies this
      ensures !running
      ensures consecutivePings == old(consecutivePings) && loopsStarted == old(loopsStarted)
    {
      running := false;
    }

    /** One pass of `_ping_loop` (client/src/server_communication.py:71-85): a success counts up and
        sets both flags, a failure resets the counter and clears both. */
    method PingOnce(o: PingOutcome)
      requires status.Valid()
      modifies this`consecutivePings, status`connected, status`ready
      ensures consecutivePings == if PingServer(o) then old(consecutivePings) + 1 else 0
      ensures status.connected == PingServer(o) && status.ready == status.connected
      ensures status.Valid()
    {
      var success := PingServer(o);
      if success {
        consecutivePings := consecutivePings + 1;
        status.connected := true;
        status.ready := true;
      } else {
        consecutivePings := 0;
        status.connected := false;
        status.ready := false;
      }
    }

    /** `_ping_loop` over the outcomes of successive pings while the running flag is set. */
    method PingLoop(outcomes: seq<PingOutcome>)
      requires status.Valid()
      modifies this`consecutivePings, status`connected, status`ready
      ensures status.Valid()
      ensures running ==> consecutivePings == Streak(old(consecutivePings), outcomes)
      ensures running && outcomes != [] ==>
        status.connected == PingServer(outcomes[|outcomes| - 1]) && status.ready == status.connected
      ensures !running ==>
        consecutivePings == old(consecutivePings) && status.connected == old(status.connected) && status.ready == old(status.ready)
    {
      var i := 0;
      while running && i < |outcomes|
        invariant 0 <= i <= |outcomes|
        invariant !running ==> i == 0
        invariant status.Valid()
        invariant consecutivePings == Streak(old(consecutivePings), outcomes[..i])
        invariant i > 0 ==> status.connected == PingServer(outcomes[i - 1]) && status.ready == status.connected
        invariant i == 0 ==> status.connected == old(status.connected) && status.ready == old(status.ready)
      {
        assert outcomes[..i + 1][..i] == outcomes[..i];
        PingOnce(outcomes[i]);
        i := i + 1;
      }
      if running {
        assert outcomes[..i] == outcomes;
      }
    }

    /** `is_connected`. */
    method IsConnected() returns (connected: bool)
      ensures connected == status.connected
    {
      connected := status.connected;
    }

    /** `is_ready`: the flag the ping loop keeps equal to `connected`. */
    method IsReady() returns (ready: bool)
      ensures ready == status.ready
    {
      ready := status.ready;
    }
  }
}

=== FILE: validator.dfy ===
/** The kiosk's card callbacks (client/src/validator.py:56-73), which the NFC reader calls and
    which update the shared status around a validation request. */
module Validator {
  import opened Common
  import opened ClientState
  import opened ServerCommunication

  /** `on_card_detected`: records the card, shows LOADING while the server is asked, then stores
      the result and shows its status. `outcome` is how the request to the server ended. */
  method OnCardDetected(status: Status, cardUid: string, outcome: HttpOutcome)
    requires status.Valid()
    modifies status`lastCardUid, status`cardActive, status`cardStatus, status`lastValidation,
             status`cardStatusHistory
    ensures status.Valid()
    ensures status.lastCardUid == Some(cardUid) && status.cardActive
    ensures status.lastValidation == Some(ValidateCard(outcome))
    ensures status.cardStatus == ValidateCard(outcome).status
    ensures status.cardStatusHistory == old(status.cardStatusHistory) + ["LOADING", status.cardStatus]
  {
    status.lastCardUid := Some(cardUid);
    status.cardActive := true;
    status.cardStatus := "LOADING";
    status.cardStatusHistory := status.cardStatusHistory + ["LOADING"];
    var result := ValidateCard(outcome);
    status.lastValidation := Some(result);
    status.cardStatus := result.status;
    status.cardStatusHistory := status.cardStatusHistory + [result.status];
  }

  /** `on_card_removed`: clears the active flag and the shown status, keeping the last card and
      the last validation. */
  method OnCardRemoved(status: Status)
    requires status.Valid()
    modifies status`cardActive, status`cardStatus, status`cardStatusHistory
    ensures status.Valid()
    ensures !status.cardActive && status.cardStatus == ""
    ensures status.cardStatusHistory == old(status.cardStatusHistory) + [""]
  {
    status.cardActive := false;
    status.cardStatus := "";
    status.cardStatusHistory := status.cardStatusHistory + [""];
  }
}
